=== FILE: README.md ===
# Minecraft block finder — a Dafny model of the spatial search

The block finder scans a directory of region files (`r.X.Z.mca`) of a world
save. It looks for blocks whose name contains a search string and reports
their world coordinates, grouped by the chunk that holds them. This project
models the search logic of `src/main.rs` and proves properties of it:

- the region corner read from the file name (`region_coordinates`). This is
  the unanchored, leftmost-first match of `r\.(-?\d+).(-?\d+)\.mca` with `\d+`
  backtracking, then `parse::<i32>` of both groups, then `* 32 * 16`;
- the optional squared-distance filter. It is built from `max_distance` and
  `home` in `main` and applied first to the region corner, then to every chunk
  origin;
- the scan of a region's chunks (`find_blocks`). It skips chunks that are not
  fully generated, computes each chunk's origin, finds every block whose name
  contains the search string, turns the block's linear index into world
  coordinates, and emits a chunk result only when it found something;
- the driver in `main`:
  - every file is scanned, and a failing file fails the run (`unwrap`);
  - the per-file results are concatenated in listing order;
  - with a `home`, the results are stably sorted by squared distance from it;
  - each chunk is reported either as its list of matches or as one count per
    distinct block name.

Modules follow the program's structure:

- `Decimal`: `parse::<i32>` and the decimal rendering it inverts.
- `Substring`: `str::contains`.
- `RegionName`: `region_coordinates` and the regex search.
- `Distance`: the filter.
- `ChunkScan`: one iteration of the chunk loop.
- `RegionScan`: `find_blocks`.
- `Flatten`: `flat_map` + `collect`.
- `StableSort`: `sort_by_key`.
- `NameCounts`: the `HashMap` fold.
- `Report`: the printed lines.
- `Search`: `main`'s pipeline.
- `Scenarios`: worked examples.

Every `i32` computation of the source except the grouped-mode counter (see
"## Left out") is checked against overflow:

- A parse that leaves the `i32` range fails with the parser's error kind.
- The `* 32 * 16` scaling of a region index fails with `Overflow`. This is
  the panic of a debug build.
- Each remaining sum, product or square carries a precondition that it stays
  in range. These are `FilterSafe`, `ChunkSafe`, `FileSafe`, `KeySafe` and
  `RunSafe`, and they follow the source's control flow: nothing is required
  of arithmetic the program never performs. For example, nothing is required
  of the chunks after the first one that does not decode, since the `?` at
  `src/main.rs:47` ends the loop there (`RegionScan.UndecodableStopsScan`).

Region pruning is not conservative. The region test looks only at the
region's corner (`src/main.rs:38`). So with origin (500, 500) and maximum
distance 10, region `r.0.0` is skipped, although its chunk at (496, 496)
passes the chunk test (`RegionScan.RegionPruneNotConservative`).

## Model

| member | source | states |
|---|---|---|
| Decimal.ParseI32 | src/main.rs:23-24 | a parsed value lies in the `i32` range and is negative only after a leading '-'; the empty string, and only it, fails with `Empty` |
| Decimal.ParseIntToString | src/main.rs:23-24 | parsing the decimal rendering of any `i32` gives the value back |
| Decimal.ParseRejectsAboveRange | src/main.rs:23-24 | a decimal number above `i32::MAX` fails with `PosOverflow` |
| Decimal.ParseRejectsBelowRange | src/main.rs:23-24 | a negative number below `i32::MIN` fails with `NegOverflow` |
| Substring.ContainsIffOccurs | src/main.rs:65 | the name test holds exactly when the search string occurs at some position of the name |
| Substring.ContainsInfix | src/main.rs:65 | a name containing the search string between any prefix and suffix passes the test |
| RegionName.SecondGroupEnd | src/main.rs:19 | after the any-character, the second group and `\.mca` can match at only one end, and it is found when it exists |
| RegionName.TryFirstGroup | src/main.rs:19 | the backtracking over the greedy first group finds the longest first group that a tail can follow, and finds one whenever one exists |
| RegionName.MatchAt | src/main.rs:19 | a match is found at a start position exactly when one exists there; it is the one with the longest first group |
| RegionName.FirstMatchFrom | src/main.rs:19-21 | the reported match is the leftmost, with no match starting before it and the longest first group at its start; none is reported only when nothing matches |
| RegionName.Captures | src/main.rs:19-21 | `captures` yields groups exactly when the leftmost search finds a match, and both groups are optionally signed digit strings |
| RegionName.NoCapturesIffNoMatch | src/main.rs:19-21 | `captures` yields no groups exactly when the pattern matches nowhere in the path |
| RegionName.RegionIndices | src/main.rs:19-24 | parsed indices are `i32` values; the "not a region file" error arises exactly when `captures` finds no match |
| RegionName.ScaleIndex | src/main.rs:23-24 | the scaling succeeds exactly when `index * 512` fits `i32`, and then yields that product |
| RegionName.RegionCoordinates | src/main.rs:18-26 | the corner lies in the `i32` range; it is the parsed indices times 512; it is reported exactly when both indices parse and both products fit `i32`; a path that does not match is rejected as not a region file, just as by the index parse |
| RegionName.ReportedMatch | src/main.rs:19-21 | a match with nothing before it and a first group that cannot be extended is the one the search reports |
| RegionName.GroupsAt | src/main.rs:19-21 | the groups of such a match, with '.' after the first group, are read off its positions |
| RegionName.WellFormedNameMatch | src/main.rs:19-21 | in a path ending `r.<a>.<b>.mca`, after a directory without a region marker, the groups are `a` and `b` |
| RegionName.WellFormedNameIndices | src/main.rs:19-24 | such a path yields the parse results of `a` and `b`, or the first parse error |
| RegionName.CanonicalIndices | src/main.rs:18-24 | the canonical name of region (x, z), after such a directory, yields the indices (x, z) |
| RegionName.CanonicalCoordinates | src/main.rs:18-26 | the canonical name of region (x, z) yields (x * 512, z * 512) when both products fit `i32`; a first index whose product overflows gives `Overflow` |
| RegionName.UnmarkedPathRejected | src/main.rs:19-21 | a path in which no 'r' is followed by '.' is rejected as not a region file |
| RegionName.OutOfRangeIndexRejected | src/main.rs:23 | a well-formed name whose first index lies outside `i32` fails with the overflow kind in the index's direction |
| RegionName.BacktrackedCaptures | src/main.rs:19-21 | in `r.<d><d><d>.mca` the first group gives back digits until the unescaped `.` can match, leaving one digit per group |
| RegionName.SplitNumberName | src/main.rs:18-26 | `r.123.mca` is read as region (1, 3), with corner (512, 1536) |
| RegionName.OriginRegionName | src/main.rs:18-26 | `r.0.0.mca` is the region whose corner is the world origin |
| Distance.Pruned | src/main.rs:37-41 | only a configured filter prunes, and never at its own origin, whatever the maximum distance |
| Distance.MakeFilter | src/main.rs:131-132 | a filter exists exactly when a maximum distance is given; it has that distance and is centred on `home`, or on (0, 0) without one |
| Distance.NoMaxDistanceNoPruning | src/main.rs:131-132 | without a maximum distance no point is pruned, wherever `home` is |
| Distance.ZeroRadiusKeepsOnlyOrigin | src/main.rs:57 | with distance 0 a point passes exactly when it is the filter's origin |
| Distance.KeptUnderLargerRadius | src/main.rs:57 | for a non-negative maximum distance, a point that passes under it passes under every larger one |
| Distance.PrunedTranslationInvariant | src/main.rs:57 | moving the point and the origin by the same vector does not change the outcome |
| Distance.ThreeFourFive | src/main.rs:38 | the test measures Euclidean distance: a point offset by (3, 4) from the origin passes with maximum distance 5 and is pruned with 4 |
| Distance.NegativeRadiusActsLikeAbsolute | src/main.rs:38 | `maxdist.pow(2)` drops the sign, so a negative maximum distance acts as its absolute value |
| ChunkScan.OffsetRoundTrip | src/main.rs:67-69 | a linear index decodes to an offset inside the 16 x 16 column, at or above its bottom, and the offset gives the index back |
| ChunkScan.IndexRoundTrip | src/main.rs:67-69 | every offset inside the column is the decoding of its own index |
| ChunkScan.OffsetInjective | src/main.rs:67-69 | distinct linear indices decode to distinct offsets |
| ChunkScan.LocateInverse | src/main.rs:66-70 | a reported world coordinate lies in its chunk's column, and its offset from the chunk origin names its index |
| ChunkScan.MatchingIndices | src/main.rs:62-65 | the indices of the matching block names, each once, in increasing order, and every matching index among them |
| ChunkScan.FoundBlocks | src/main.rs:62-73 | the matches are exactly the blocks whose names contain the search string, in increasing index order, each at its index's world coordinate; they are empty only when no name matches |
| ChunkScan.ReportedPositionsDistinct | src/main.rs:62-72 | distinct matches of one chunk have distinct coordinates |
| ChunkScan.ScanChunk | src/main.rs:47-79 | a chunk that is not fully generated yields nothing; a result is placed at the chunk origin, is not pruned, holds at least one block, and lists exactly the matching blocks; no result means not full, pruned or no match |
| ChunkScan.NoFilterKeepsMatchingChunks | src/main.rs:48-79 | without a filter a chunk is reported exactly when it is fully generated and has a matching block |
| RegionScan.EntryResult | src/main.rs:46-79 | an entry yields a result only when it is a decoded, fully generated, unpruned chunk, and every such chunk with a matching block does yield one; the result sits at the chunk's origin and lists exactly its matching blocks, at least one |
| RegionScan.ScanEntries | src/main.rs:46-82 | the loop fails exactly when some entry does not decode, and then with the chunk error; otherwise its results are those the entries yield, in entry order (`Kept`) |
| RegionScan.KeptMembers | src/main.rs:46-80 | every collected result is what some entry yields, and every entry that yields a result is collected |
| RegionScan.MatchingChunkReported | src/main.rs:46-79 | when the chunk loop succeeds, every fully generated, unpruned chunk with a matching block is among its results |
| RegionScan.UndecodableStopsScan | src/main.rs:46-47 | after a chunk that does not decode, nothing else is scanned: the region fails with the chunk error and the later entries need no guarantee |
| RegionScan.FindBlocks | src/main.rs:28-83 | a bad name fails with its error; a pruned region yields nothing; an unreadable region that is not pruned fails; otherwise the result is the chunk loop over its entries; every result holds at least one block, each containing the search string |
| RegionScan.ResultsComeFromFullChunks | src/main.rs:46-79 | every result of a file comes from a fully generated, unpruned chunk of it, at that chunk's origin, with exactly its matching blocks |
| RegionScan.ScannedFromFullChunks | src/main.rs:46-80 | every result of the chunk loop comes from a fully generated, unpruned chunk among its entries |
| RegionScan.NoFilterScansEveryRegion | src/main.rs:37-46 | without a filter a well-named, readable region is scanned in full |
| RegionScan.FarCornerSkipsRegion | src/main.rs:37-41 | any region whose corner fails the filter yields no results, whatever it holds |
| RegionScan.NearChunkKept | src/main.rs:52-79 | the chunk at grid (31, 31) of region (0, 0), with origin (496, 496), passes the filter around (500, 500) with distance 10 and is reported |
| RegionScan.RegionPruneNotConservative | src/main.rs:37-60 | region pruning is not conservative: the region is skipped although its chunk would pass the chunk test |
| Flatten.FlatMapAppend | src/main.rs:141-150 | the concatenation over two lists of files is the concatenation of the two results |
| Flatten.FlatMapPermutation | src/main.rs:139-150 | permuting the files permutes the concatenated results |
| Flatten.CollectAll | src/main.rs:139-150 | the collection fails exactly when some element fails; otherwise it is the concatenation of the per-element values |
| Flatten.CollectFirstFailure | src/main.rs:141-148 | a failed collection reports the error of the first failing element, and every element before it succeeds |
| Flatten.CollectPermutation | src/main.rs:139-150 | permuting the elements neither changes whether the collection fails nor, up to order, what it collects |
| StableSort.SortByKey | src/main.rs:156 | the result is ordered by key, holds the same elements, and keeps elements of equal key in their original order |
| StableSort.StableSortUnique | src/main.rs:156 | two sequences ordered by key, with the same elements of each key in the same order, are equal, so the stable sort's result is determined |
| Search.SearchFiles | src/main.rs:139-150 | the run fails exactly when some file's scan fails; otherwise it is the per-file results concatenated in listing order |
| Search.FirstFailureReported | src/main.rs:139-150 | a failed run reports the error of the first failing file in listing order |
| Search.DirectoryOrderIrrelevant | src/main.rs:134-150 | the listing order of the directory changes neither whether the run fails nor, up to order, the collected results |
| Search.SortResults | src/main.rs:154-157 | without a home the collected order is kept; with one, the results are a permutation ordered by squared distance from home, equidistant chunks in collected order |
| Search.SortedOrderIsUnique | src/main.rs:155-157 | any arrangement ordered by distance that keeps equidistant chunks in collected order is the sorted result |
| Search.Run | src/main.rs:139-176 | the run fails exactly when some file fails; otherwise its lines are those of the collected results up to order, and exactly those without a home |
| Search.RunPrintsSorted | src/main.rs:154-176 | with a home, the printed lines are those of an arrangement of the collected results ordered by squared distance from home, equidistant chunks in collected order |
| Search.OutputIndependentOfDirectoryOrder | src/main.rs:134-176 | up to the order of the lines, the output does not depend on the directory's listing order |
| NameCounts.TallyNames | src/main.rs:165-171 | the fold has a key for each name among the chunk's matches and no other, each mapped to the number of matches with exactly that name |
| NameCounts.DistinctNames | src/main.rs:165-171 | each name of the chunk's matches once, and no other name |
| NameCounts.TallyTotal | src/main.rs:165-171 | the counts of all names add up to the number of matches |
| Report.BlockLines | src/main.rs:160-163 | in listing mode a chunk prints one line per match, in the chunk's order, with the match's coordinate and name |
| Report.ChunkCountLines | src/main.rs:164-174 | in grouped mode a chunk prints one line per distinct name of its matches, each with the number of matches of exactly that name |
| Report.GroupedCounts | src/main.rs:165-174 | every grouped line of a chunk names one of its blocks and carries the number of its matches with exactly that name |
| Report.GroupedNamesOnce | src/main.rs:165-174 | every name of a chunk's matches gets exactly one grouped line |
| Report.ChunkCountTotal | src/main.rs:159-174 | in one chunk the grouped counts add up to the number of lines the listing mode prints |
| Report.Lines | src/main.rs:159-176 | in listing mode there is one line per match over all chunks; in grouped mode the counts add up to that same number |
| Report.LinesAppend | src/main.rs:159-176 | the lines printed for consecutive results are those of each, one after the other, so chunks are printed in result order |
| Report.LinesOfOne | src/main.rs:160-174 | the lines printed for one result are its listing lines, or its grouped count lines |
| Report.LineTotals | src/main.rs:159-176 | over all chunks the listing has one line per match, and the grouped counts add up to the number of matches |
| Scenarios.SingleMatchChunk | src/main.rs:52-79 | a full chunk at grid (1, 2) of region (0, 0) whose only match is index 5 yields origin (16, y, 32) and one block at (21, y, 32) |
| Scenarios.SingleMatchEntries | src/main.rs:46-82 | the chunk loop over that single chunk yields exactly that one result |
| Scenarios.SingleMatchScenario | src/main.rs:28-83 | a region with corner (0, 0) holding that chunk yields exactly that one result without a filter |
| Scenarios.DistantHomeScenario | src/main.rs:37-41 | with home (1000, 1000) and maximum distance 10, region (0, 0) yields nothing |
| Scenarios.NearerChunkFirst | src/main.rs:155-157 | chunks at squared distances 400 and 25 from home are reported nearer first |
| Scenarios.ThreeAndOneScenario | src/main.rs:165-174 | a chunk with matches named n, n, m, n gets two grouped lines, n with count 3 and m with count 1, in the model's order of first occurrence |

## Left out

- Decoding is not modelled (`Region::from_stream`, `Chunk::from_bytes`, `iter_blocks`, `y_range`). It is a foreign binary format. A region file is given as its path and its content:
  - a container that cannot be opened, or
  - a sequence of chunk entries, each unreadable (dropped by `flatten`), undecodable (the `?` abort), or decoded.
  A decoded chunk is its status, grid position, lowest y and block names.
- `y_range().start as i32` is taken as an `i32` value. The truncating cast is not modelled.
- The filesystem is not modelled: `read_dir`, `File::open`, `to_str().unwrap()` and the configuration file. The directory is a sequence of region files, and a file that cannot be opened is not modelled.
- Command-line and configuration merging is not modelled (`clap`, `toml`, the `expect` on missing parameters). `Search.Request` receives the merged values.
- Printing is not modelled: the `println!` formatting, the per-file progress line and the "Found chunks" line. Output lines are the `ReportLine` datatype.
- The iteration order of the `HashMap` in grouped mode is unspecified. The model fixes one order, that of first occurrence. `Report.ChunkCountLines` and `Scenarios.ThreeAndOneScenario` state this order, which the source does not promise. The other grouped-mode facts hold whatever the order: one line per name, the right counts, and the totals.
- Parallel scanning with `rayon` is modelled as evaluation in listing order. `collect` keeps that order for successful runs. When several files fail, which panic surfaces first is not modelled: the model reports the first failing file in listing order.
- Search.FileScan: its failure branch for a file outside `FileSafe` does not exist in the source. `SearchFiles` requires `FileSafe` of every file, so that branch is never taken.
- Release-build wrap-around of `i32` arithmetic is not modelled. An overflowing `* 32 * 16` is the explicit `Overflow` error. Every other overflow is excluded by a precondition.
- `\d` is modelled as the ASCII digits. The regex crate's `\d` also matches other Unicode decimal digits, which `parse::<i32>` would then reject.
- Decimal.ParseI32: when a string both has a non-digit and is out of range, which error kind wins is not modelled. The regex captures never contain a non-digit after the optional sign.
- Distance.Pruned: its own contract states only that nothing is pruned without a filter or at the filter's origin. The full test, the squared distance compared with the squared maximum distance, is stated by its body. The lemma `Distance.ThreeFourFive` pins the metric as Euclidean, since it fails for a Manhattan or maximum-coordinate test. The other `Distance` lemmas state the test's properties: zero and negative distances, monotonicity and translation.
- Report.Lines: its own contract fixes only the number of listing lines and the total of the grouped counts. Which lines are printed, and in what order, is fixed by the lemmas `Report.LinesAppend` and `Report.LinesOfOne`, since a function's contract cannot mention its own results for other arguments.
- Search.Run: with a home configured, the contract states the lines only up to order. The exact order is stated by the lemma `Search.RunPrintsSorted`: the lines are those of an arrangement ordered by distance that keeps equidistant chunks in collected order. By `Search.SortedOrderIsUnique` that arrangement is unique.
- The grouped-mode counter `*acc.entry(..).or_insert(0) += 1` is an `i32` that is not checked against overflow. A count is an unbounded `nat`. A real chunk holds far fewer than 2^31 blocks.
- The worked examples in `Scenarios` and `RegionName.BacktrackedCaptures` are stated for any input of the described shape rather than for literal block names or digits. `RegionName.SplitNumberName` and `RegionName.OriginRegionName` use the literal names `"r.123.mca"` and `"r.0.0.mca"`.

=== FILE: chunk_scan.dfy ===
/** Scanning one decoded chunk (the body of the chunk loop in `find_blocks`):
    the status check, the chunk's world origin, the chunk-level distance test,
    and the matching blocks with their world coordinates. */
module ChunkScan {
  import opened Wrappers
  import Int32
  import opened Substring
  import opened Distance

  /** A world coordinate (x, y, z). */
  datatype Pos = Pos(x: int, y: int, z: int)

  /** One matching block: its world coordinate and its full name. */
  datatype BlockMatch = BlockMatch(pos: Pos, name: string)

  /** `BlockResults`: the origin of a chunk and the matches found in it. */
  datatype BlockResults = BlockResults(chunk: Pos, blocks: seq<BlockMatch>)

  /** A chunk as the decoder hands it over: its generation status, its position
      (localX, localZ) in the region's 32 x 32 grid, the lowest y of its
      vertical range, and the block names in linear index order. */
  datatype Chunk = Chunk(status: string, localX: nat, localZ: nat, yStart: int, blocks: seq<string>)

  /** The status of a fully generated chunk; every other chunk is skipped. */
  const FULL_STATUS: string := "minecraft:full"

  /** Blocks along one horizontal side of a chunk. */
  const CHUNK_WIDTH: int := 16

  /** The offset inside the chunk of linear index `i`: x varies fastest, then z,
      then y, one layer of 16 x 16 blocks at a time. */
  function BlockOffset(i: nat): Pos {
    Pos(i % 16, i / (16 * 16), (i / 16) % 16)
  }

  /** The linear index of an offset inside a chunk. */
  function OffsetIndex(p: Pos): int {
    p.y * 256 + p.z * 16 + p.x
  }

  /** The offset lies inside the 16 x 16 column, at or above its bottom. */
  predicate InColumn(p: Pos) {
    0 <= p.x < CHUNK_WIDTH && 0 <= p.z < CHUNK_WIDTH && 0 <= p.y
  }

  /** Decoding an index gives an offset inside the column, from which the index
      is recovered. */
  lemma OffsetRoundTrip(i: nat)
    ensures InColumn(BlockOffset(i))
    ensures OffsetIndex(BlockOffset(i)) == i
  {
    var p := BlockOffset(i);
    assert i == (i / 16) * 16 + p.x;
    assert i / 16 == (i / 256) * 16 + p.z;
  }

  /** Every offset inside the column is the decoding of its own index. */
  lemma IndexRoundTrip(p: Pos)
    requires InColumn(p)
    ensures 0 <= OffsetIndex(p)
    ensures BlockOffset(OffsetIndex(p)) == p
  {
    var i := OffsetIndex(p);
    assert i == (p.y * 16 + p.z) * 16 + p.x;
    assert i % 16 == p.x && i / 16 == p.y * 16 + p.z;
    assert (p.y * 16 + p.z) % 16 == p.z && (p.y * 16 + p.z) / 16 == p.y;
    assert i / 256 == (i / 16) / 16;
  }

  /** Distinct linear indices give distinct offsets. */
  lemma OffsetInjective(i: nat, j: nat)
    requires i != j
    ensures BlockOffset(i) != BlockOffset(j)
  {
    OffsetRoundTrip(i);
    OffsetRoundTrip(j);
  }

  /** The world origin of a chunk: the region corner plus 16 blocks per grid
      step, at the bottom of the chunk's vertical range. */
  function ChunkOrigin(regionX: int, regionZ: int, c: Chunk): Pos {
    Pos(regionX + c.localX * CHUNK_WIDTH, c.yStart, regionZ + c.localZ * CHUNK_WIDTH)
  }

  /** The world coordinate of linear index `i` in the chunk whose origin is `origin`. */
  function Locate(origin: Pos, i: nat): Pos {
    Pos(origin.x + i % 16, origin.y + i / (16 * 16), origin.z + (i / 16) % 16)
  }

  /** The offset of a world coordinate from a chunk origin. */
  function Relative(origin: Pos, p: Pos): Pos {
    Pos(p.x - origin.x, p.y - origin.y, p.z - origin.z)
  }

  /** Reported coordinates lie in the chunk's column and name their index. */
  lemma LocateInverse(origin: Pos, i: nat)
    ensures InColumn(Relative(origin, Locate(origin, i)))
    ensures OffsetIndex(Relative(origin, Locate(origin, i))) == i
  {
    assert Relative(origin, Locate(origin, i)) == BlockOffset(i);
    OffsetRoundTrip(i);
  }

  /** The indices of the names containing `sub`, in increasing order. */
  function MatchingIndices(names: seq<string>, sub: string): (idx: seq<nat>)
    ensures forall k :: 0 <= k < |idx| ==> idx[k] < |names| && Contains(names[idx[k]], sub)
    ensures forall k1, k2 :: 0 <= k1 < k2 < |idx| ==> idx[k1] < idx[k2]
    ensures forall i :: 0 <= i < |names| && Contains(names[i], sub) ==> i in idx
  {
    if |names| == 0 then []
    else
      var prev := MatchingIndices(names[..|names| - 1], sub);
      if Contains(names[|names| - 1], sub) then prev + [|names| - 1] else prev
  }

  /** The `i32` arithmetic for index `i` fits: the cast of the index and the
      three coordinate sums. */
  predicate IndexSafe(origin: Pos, i: nat) {
    && i <= Int32.MAX
    && Int32.InRange(origin.x + i % 16)
    && Int32.InRange(origin.y + i / (16 * 16))
    && Int32.InRange(origin.z + (i / 16) % 16)
  }

  /** The chunk's `i32` arithmetic never overflows, following the source's
      control flow: nothing is computed for a chunk that is not fully
      generated, and no block coordinate is computed for a pruned chunk. */
  predicate ChunkSafe(regionX: int, regionZ: int, filter: Option<DistanceFilter>, c: Chunk, sub: string) {
    c.status == FULL_STATUS ==>
      var origin := ChunkOrigin(regionX, regionZ, c);
      && Int32.InRange(regionX) && Int32.InRange(regionZ) && Int32.InRange(c.yStart)
      && Int32.InRange(c.localX) && Int32.InRange(c.localX * CHUNK_WIDTH)
      && Int32.InRange(c.localZ) && Int32.InRange(c.localZ * CHUNK_WIDTH)
      && Int32.InRange(origin.x) && Int32.InRange(origin.z)
      && TestSafe(origin.x, origin.z, filter)
      && (!Pruned(origin.x, origin.z, filter) ==>
            forall i :: 0 <= i < |c.blocks| && Contains(c.blocks[i], sub) ==> IndexSafe(origin, i))
  }

  /** `found` lists exactly the blocks of `names` that contain `sub`, in
      increasing index order, each at the world coordinate of its index in the
      chunk whose origin is `origin`. */
  ghost predicate ReportsExactly(origin: Pos, found: seq<BlockMatch>, names: seq<string>, sub: string) {
    && (forall k :: 0 <= k < |found| ==>
          var off := Relative(origin, found[k].pos);
          && InColumn(off)
          && OffsetIndex(off) < |names|
          && found[k].name == names[OffsetIndex(off)]
          && Contains(found[k].name, sub))
    && (forall k1, k2 :: 0 <= k1 < k2 < |found| ==>
          OffsetIndex(Relative(origin, found[k1].pos)) < OffsetIndex(Relative(origin, found[k2].pos)))
    && (forall i :: 0 <= i < |names| && Contains(names[i], sub) ==>
          exists k :: 0 <= k < |found| && found[k].pos == Locate(origin, i))
  }

  /** The matches at the indices `idx` of `names`, each at the world
      coordinate of its index in the chunk whose origin is `origin`. */
  function Located(origin: Pos, names: seq<string>, idx: seq<nat>): seq<BlockMatch>
    requires forall k :: 0 <= k < |idx| ==> idx[k] < |names|
  {
    seq(|idx|, k requires 0 <= k < |idx| => BlockMatch(Locate(origin, idx[k]), names[idx[k]]))
  }

  /** Each located match sits in the chunk's column, at its own index. */
  lemma LocatedOffsets(origin: Pos, names: seq<string>, idx: seq<nat>)
    requires forall k :: 0 <= k < |idx| ==> idx[k] < |names|
    ensures var found := Located(origin, names, idx);
            forall k :: 0 <= k < |found| ==>
              && InColumn(Relative(origin, found[k].pos))
              && OffsetIndex(Relative(origin, found[k].pos)) == idx[k]
              && found[k].name == names[idx[k]]
  {
    var found := Located(origin, names, idx);
    forall k | 0 <= k < |found|
      ensures InColumn(Relative(origin, found[k].pos))
      ensures OffsetIndex(Relative(origin, found[k].pos)) == idx[k]
    {
      LocateInverse(origin, idx[k]);
    }
  }

  lemma LocatedExact(origin: Pos, names: seq<string>, sub: string, idx: seq<nat>)
    requires idx == MatchingIndices(names, sub)
    ensures ReportsExactly(origin, Located(origin, names, idx), names, sub)
    ensures |Located(origin, names, idx)| == 0 <==>
              forall i :: 0 <= i < |names| ==> !Contains(names[i], sub)
  {
    var found := Located(origin, names, idx);
    LocatedOffsets(origin, names, idx);
    forall i | 0 <= i < |names| && Contains(names[i], sub)
      ensures exists k :: 0 <= k < |found| && found[k].pos == Locate(origin, i)
    {
      var k :| 0 <= k < |idx| && idx[k] == i;
      assert found[k].pos == Locate(origin, i);
    }
    if 0 < |idx| {
      assert Contains(names[idx[0]], sub);
    }
  }

  /** The matches of a chunk whose origin is `origin`: exactly the blocks
      whose names contain `sub`, in increasing index order, each at the world
      coordinate of its index; none only when no name matches. */
  function FoundBlocks(origin: Pos, names: seq<string>, sub: string): (found: seq<BlockMatch>)
    ensures ReportsExactly(origin, found, names, sub)
    ensures |found| == 0 <==> forall i :: 0 <= i < |names| ==> !Contains(names[i], sub)
  {
    var idx := MatchingIndices(names, sub);
    LocatedExact(origin, names, sub, idx);
    Located(origin, names, idx)
  }

  /** Distinct reported blocks of one chunk have distinct coordinates. */
  lemma ReportedPositionsDistinct(origin: Pos, found: seq<BlockMatch>, names: seq<string>, sub: string)
    requires ReportsExactly(origin, found, names, sub)
    ensures forall k1, k2 :: 0 <= k1 < |found| && 0 <= k2 < |found| && k1 != k2 ==> found[k1].pos != found[k2].pos
  {
    forall k1, k2 | 0 <= k1 < |found| && 0 <= k2 < |found| && k1 != k2
      ensures found[k1].pos != found[k2].pos
    {
      if k1 < k2 {
        assert OffsetIndex(Relative(origin, found[k1].pos)) < OffsetIndex(Relative(origin, found[k2].pos));
      } else {
        assert OffsetIndex(Relative(origin, found[k2].pos)) < OffsetIndex(Relative(origin, found[k1].pos));
      }
    }
  }

  /** One iteration of the chunk loop: a `BlockResults` for a fully generated,
      unpruned chunk with at least one matching block, and nothing otherwise. */
  function ScanChunk(regionX: int, regionZ: int, filter: Option<DistanceFilter>, c: Chunk, sub: string)
    : (r: Option<BlockResults>)
    requires ChunkSafe(regionX, regionZ, filter, c, sub)
    ensures c.status != FULL_STATUS ==> r.None?
    ensures r.Some? ==> r.value.chunk == ChunkOrigin(regionX, regionZ, c)
    ensures r.Some? ==> !Pruned(r.value.chunk.x, r.value.chunk.z, filter)
    ensures r.Some? ==> 0 < |r.value.blocks|
    ensures r.Some? ==> ReportsExactly(r.value.chunk, r.value.blocks, c.blocks, sub)
    ensures r.None? ==>
              || c.status != FULL_STATUS
              || Pruned(ChunkOrigin(regionX, regionZ, c).x, ChunkOrigin(regionX, regionZ, c).z, filter)
              || forall i :: 0 <= i < |c.blocks| ==> !Contains(c.blocks[i], sub)
  {
    if c.status != FULL_STATUS then None
    else
      var origin := ChunkOrigin(regionX, regionZ, c);
      if Pruned(origin.x, origin.z, filter) then None
      else
        var found := FoundBlocks(origin, c.blocks, sub);
        if |found| == 0 then None else Some(BlockResults(origin, found))
  }

  /** Without a filter a chunk is reported exactly when it is fully generated
      and has a matching block. */
  lemma NoFilterKeepsMatchingChunks(regionX: int, regionZ: int, c: Chunk, sub: string)
    requires ChunkSafe(regionX, regionZ, None, c, sub)
    ensures ScanChunk(regionX, regionZ, None, c, sub).Some? <==>
              c.status == FULL_STATUS && exists i :: 0 <= i < |c.blocks| && Contains(c.blocks[i], sub)
  {
    var origin := ChunkOrigin(regionX, regionZ, c);
    var found := FoundBlocks(origin, c.blocks, sub);
    var r := ScanChunk(regionX, regionZ, None, c, sub);
    if r.Some? {
      var i := OffsetIndex(Relative(origin, r.value.blocks[0].pos));
      assert 0 <= i < |c.blocks| && Contains(c.blocks[i], sub);
    }
  }
}

=== FILE: decimal.dfy ===
/** Decimal integers as text: the `i32` parser behind `str::parse::<i32>` and
    the decimal rendering of an integer, which the parser inverts. */
module Decimal {
  import opened Wrappers
  import Int32

  predicate IsDigit(c: char) {
    '0' <= c <= '9'
  }

  predicate AllDigits(t: string) {
    forall i :: 0 <= i < |t| ==> IsDigit(t[i])
  }

  function DigitValue(c: char): nat
    requires IsDigit(c)
  {
    (c as int) - ('0' as int)
  }

  function DigitChar(d: nat): char
    requires d < 10
  {
    (('0' as int) + d) as char
  }

  /** The value of a run of decimal digits, most significant first. */
  function DigitsValue(t: string): nat
    requires AllDigits(t)
  {
    if |t| == 0 then 0 else DigitsValue(t[..|t| - 1]) * 10 + DigitValue(t[|t| - 1])
  }

  /** The shortest decimal digits of `n`. */
  function NatToString(n: nat): (t: string)
    ensures 1 <= |t| && AllDigits(t)
  {
    if n < 10 then [DigitChar(n)] else NatToString(n / 10) + [DigitChar(n % 10)]
  }

  /** How `i32` is displayed: a minus sign for negative values, then the digits. */
  function IntToString(n: int): string {
    if n < 0 then "-" + NatToString(-n) else NatToString(n)
  }

  /** Rust's `IntErrorKind` as far as the `i32` parser can produce it. */
  datatype ParseIntError = Empty | InvalidDigit | PosOverflow | NegOverflow

  /** `str::parse::<i32>`: an optional `+` or `-`, then at least one ASCII digit;
      the value must fit the `i32` range. */
  function ParseI32(t: string): (r: Result<int, ParseIntError>)
    ensures r.Success? ==> Int32.InRange(r.value)
    ensures r.Success? ==> 1 <= |t| && (r.value < 0 ==> t[0] == '-')
    ensures |t| == 0 <==> r == Failure(Empty)
  {
    if |t| == 0 then Failure(Empty)
    else if (t[0] == '+' || t[0] == '-') && |t| == 1 then Failure(InvalidDigit)
    else
      var digits := if t[0] == '+' || t[0] == '-' then t[1..] else t;
      if !AllDigits(digits) then Failure(InvalidDigit)
      else
        var v: int := if t[0] == '-' then 0 - (DigitsValue(digits) as int) else DigitsValue(digits);
        if v > Int32.MAX then Failure(PosOverflow)
        else if v < Int32.MIN then Failure(NegOverflow)
        else Success(v)
  }

  /** A single digit parses to its value. */
  lemma ParseSingleDigit(t: string)
    requires |t| == 1 && IsDigit(t[0])
    ensures ParseI32(t) == Success(DigitValue(t[0]))
  {
    assert AllDigits(t);
    assert t[..0] == [];
    assert DigitsValue(t) == DigitsValue(t[..0]) * 10 + DigitValue(t[0]);
  }

  lemma {:induction false} DigitsValueOfNatToString(n: nat)
    ensures DigitsValue(NatToString(n)) == n
  {
    var t := NatToString(n);
    if n >= 10 {
      DigitsValueOfNatToString(n / 10);
      assert t[..|t| - 1] == NatToString(n / 10);
    }
  }

  lemma ParseNatToString(n: nat)
    requires n <= Int32.MAX
    ensures ParseI32(NatToString(n)) == Success(n)
  {
    var t := NatToString(n);
    DigitsValueOfNatToString(n);
    assert t[0] != '-' && t[0] != '+';
  }

  lemma ParseNegativeToString(n: nat)
    requires 0 < n <= -Int32.MIN
    ensures ParseI32("-" + NatToString(n)) == Success(-(n as int))
  {
    var t := "-" + NatToString(n);
    DigitsValueOfNatToString(n);
    assert t[1..] == NatToString(n);
  }

  /** Parsing inverts rendering on the whole `i32` range. */
  lemma ParseIntToString(n: int)
    requires Int32.InRange(n)
    ensures ParseI32(IntToString(n)) == Success(n)
  {
    if n < 0 {
      ParseNegativeToString(-n);
    } else {
      ParseNatToString(n);
    }
  }

  /** The canonical decimal rendering of a value above the `i32` range is
      rejected with the positive overflow. */
  lemma ParseRejectsAboveRange(n: nat)
    requires n > Int32.MAX
    ensures ParseI32(NatToString(n)) == Failure(PosOverflow)
  {
    DigitsValueOfNatToString(n);
    var t := NatToString(n);
    assert t[0] != '-' && t[0] != '+';
  }

  /** The canonical decimal rendering of a value below the `i32` range is
      rejected with the negative overflow. */
  lemma ParseRejectsBelowRange(n: nat)
    requires n > -Int32.MIN
    ensures ParseI32("-" + NatToString(n)) == Failure(NegOverflow)
  {
    DigitsValueOfNatToString(n);
    var t := "-" + NatToString(n);
    assert t[1..] == NatToString(n);
  }
}

=== FILE: distance.dfy ===
/** The optional squared-distance filter applied to region corners and chunk
    origins, and its construction from the configuration. */
module Distance {
  import opened Wrappers
  import Int32

  /** Origin of the search in the x/z plane and the largest allowed distance. */
  datatype DistanceFilter = DistanceFilter(fromX: int, fromZ: int, maxDist: int)

  function Sq(a: int): int {
    a * a
  }

  /** Squared horizontal distance between (x, z) and (fx, fz). */
  function SqDist(x: int, z: int, fx: int, fz: int): int {
    Sq(x - fx) + Sq(z - fz)
  }

  /** Every intermediate `i32` value of the filter test at (x, z) fits: the two
      differences, their squares, the sum and `maxdist.pow(2)`. */
  predicate FilterSafe(x: int, z: int, f: DistanceFilter) {
    && Int32.InRange(x) && Int32.InRange(z)
    && Int32.InRange(f.fromX) && Int32.InRange(f.fromZ) && Int32.InRange(f.maxDist)
    && Int32.InRange(x - f.fromX) && Int32.InRange(z - f.fromZ)
    && Int32.InRange(Sq(x - f.fromX)) && Int32.InRange(Sq(z - f.fromZ))
    && Int32.InRange(SqDist(x, z, f.fromX, f.fromZ))
    && Int32.InRange(Sq(f.maxDist))
  }

  /** The filter test can be evaluated at (x, z) without overflow (vacuous when
      no filter is configured). */
  predicate TestSafe(x: int, z: int, filter: Option<DistanceFilter>) {
    filter.Some? ==> FilterSafe(x, z, filter.value)
  }

  /** The point (x, z) is skipped: a filter is configured and the point lies
      strictly farther than `maxDist` from its origin. Callers evaluate it only
      where `TestSafe` holds, so the exact value is the `i32` one. Only a
      configured filter prunes, and never at its own origin, whatever the
      maximum distance. */
  predicate Pruned(x: int, z: int, filter: Option<DistanceFilter>): (p: bool)
    ensures p ==> filter.Some? && (x != filter.value.fromX || z != filter.value.fromZ)
  {
    match filter
    case None => false
    case Some(f) =>
      SqNonNegative(f.maxDist);
      SqDist(x, z, f.fromX, f.fromZ) > Sq(f.maxDist)
  }

  /** The filter built in `main`: present only when a maximum distance is
      given, centred on `home`, or on (0, 0) when there is no home. */
  function MakeFilter(home: Option<(int, int)>, maxDistance: Option<int>): (r: Option<DistanceFilter>)
    ensures r.Some? <==> maxDistance.Some?
    ensures r.Some? ==> r.value.maxDist == maxDistance.value
    ensures r.Some? && home.None? ==> r.value.fromX == 0 && r.value.fromZ == 0
    ensures r.Some? && home.Some? ==> (r.value.fromX, r.value.fromZ) == home.value
  {
    match maxDistance
    case None => None
    case Some(m) =>
      var (hx, hz) := home.GetOr((0, 0));
      Some(DistanceFilter(hx, hz, m))
  }

  /** Without a maximum distance nothing is ever pruned, wherever home is. */
  lemma NoMaxDistanceNoPruning(home: Option<(int, int)>, x: int, z: int)
    ensures TestSafe(x, z, MakeFilter(home, None))
    ensures !Pruned(x, z, MakeFilter(home, None))
  {
  }

  lemma SqNonNegative(a: int)
    ensures Sq(a) >= 0
    ensures Sq(a) == 0 <==> a == 0
  {
    if a < 0 {
      assert Sq(a) == (-a) * (-a) >= -a;
    } else if a > 0 {
      assert Sq(a) == a * a >= a;
    }
  }

  lemma SqMonotone(a: int, b: int)
    requires 0 <= a <= b
    ensures Sq(a) <= Sq(b)
  {
    assert a * a <= a * b <= b * b;
  }

  /** With radius 0 only the origin itself passes. */
  lemma ZeroRadiusKeepsOnlyOrigin(x: int, z: int, fx: int, fz: int)
    ensures !Pruned(x, z, Some(DistanceFilter(fx, fz, 0))) <==> x == fx && z == fz
  {
    SqNonNegative(x - fx);
    SqNonNegative(z - fz);
  }

  /** A point kept under some radius is kept under every larger radius. */
  lemma KeptUnderLargerRadius(x: int, z: int, fx: int, fz: int, d: int, d': int)
    requires 0 <= d <= d'
    ensures !Pruned(x, z, Some(DistanceFilter(fx, fz, d))) ==> !Pruned(x, z, Some(DistanceFilter(fx, fz, d')))
  {
    SqMonotone(d, d');
  }

  /** Shifting the point and the filter's origin by the same vector does not
      change the outcome. */
  lemma PrunedTranslationInvariant(x: int, z: int, f: DistanceFilter, dx: int, dz: int)
    ensures Pruned(x + dx, z + dz, Some(DistanceFilter(f.fromX + dx, f.fromZ + dz, f.maxDist)))
            == Pruned(x, z, Some(f))
  {
    assert (x + dx) - (f.fromX + dx) == x - f.fromX;
    assert (z + dz) - (f.fromZ + dz) == z - f.fromZ;
  }

  /** `maxdist.pow(2)` loses the sign: a negative maximum distance acts like its
      absolute value. */
  lemma NegativeRadiusActsLikeAbsolute(x: int, z: int, fx: int, fz: int, d: int)
    ensures Pruned(x, z, Some(DistanceFilter(fx, fz, -d))) == Pruned(x, z, Some(DistanceFilter(fx, fz, d)))
  {
    assert Sq(-d) == Sq(d);
  }

  /** The test measures Euclidean distance: the point (3, 4) away from the
      origin lies at distance exactly 5, so it passes with maximum distance 5
      and is pruned with 4, wherever the origin is. */
  lemma ThreeFourFive(fx: int, fz: int)
    ensures !Pruned(fx + 3, fz + 4, Some(DistanceFilter(fx, fz, 5)))
    ensures Pruned(fx + 3, fz + 4, Some(DistanceFilter(fx, fz, 4)))
  {
    assert SqDist(fx + 3, fz + 4, fx, fz) == 25;
  }
}

=== FILE: flatten.dfy ===
/** Mapping every element to a sequence and concatenating the results, in
    element order (`flat_map` followed by `collect`). */
module Flatten {
  import opened Wrappers

  function FlatMap<T, U>(s: seq<T>, f: T -> seq<U>): seq<U> {
    if |s| == 0 then [] else f(s[0]) + FlatMap(s[1..], f)
  }

  lemma FlatMapOne<T, U>(x: T, f: T -> seq<U>)
    ensures FlatMap([x], f) == f(x)
  {
    assert [x][1..] == [];
    assert f(x) + [] == f(x);
  }

  lemma {:induction false} FlatMapAppend<T, U>(a: seq<T>, b: seq<T>, f: T -> seq<U>)
    ensures FlatMap(a + b, f) == FlatMap(a, f) + FlatMap(b, f)
    decreases |a|
  {
    if |a| == 0 {
      assert a + b == b;
    } else {
      assert (a + b)[0] == a[0];
      assert (a + b)[1..] == a[1..] + b;
      FlatMapAppend(a[1..], b, f);
    }
  }

  lemma MultisetRemoveAt<T>(b: seq<T>, i: int)
    requires 0 <= i < |b|
    ensures multiset(b[..i] + b[i + 1..]) == multiset(b) - multiset{b[i]}
  {
    assert b == b[..i] + [b[i]] + b[i + 1..];
  }

  lemma FlatMapSplit<T, U>(b: seq<T>, i: int, f: T -> seq<U>)
    requires 0 <= i < |b|
    ensures FlatMap(b, f) == FlatMap(b[..i], f) + (f(b[i]) + FlatMap(b[i + 1..], f))
  {
    assert b == b[..i] + b[i..];
    FlatMapAppend(b[..i], b[i..], f);
    assert b[i..][0] == b[i] && b[i..][1..] == b[i + 1..];
  }

  lemma FlatMapRemoveAt<T, U>(b: seq<T>, i: int, f: T -> seq<U>)
    requires 0 <= i < |b|
    ensures multiset(FlatMap(b, f)) == multiset(FlatMap(b[..i] + b[i + 1..], f)) + multiset(f(b[i]))
  {
    var a, x, c := FlatMap(b[..i], f), f(b[i]), FlatMap(b[i + 1..], f);
    FlatMapSplit(b, i, f);
    FlatMapAppend(b[..i], b[i + 1..], f);
    assert multiset(a + (x + c)) == multiset(a) + (multiset(x) + multiset(c));
    assert multiset(a + c) == multiset(a) + multiset(c);
  }

  /** The first element of `a` occurs in any permutation `b` of it, and the
      rests are permutations of each other. */
  lemma PermutationHead<T>(a: seq<T>, b: seq<T>) returns (i: nat)
    requires 0 < |a| && multiset(a) == multiset(b)
    ensures i < |b| && b[i] == a[0]
    ensures multiset(a[1..]) == multiset(b[..i] + b[i + 1..])
  {
    MultisetRemoveAt(a, 0);
    assert a[..0] + a[1..] == a[1..];
    assert a[0] in multiset(b);
    i :| 0 <= i < |b| && b[i] == a[0];
    MultisetRemoveAt(b, i);
  }

  /** The concatenation depends on the order of the elements only through the
      order of its parts: permuting the input permutes the output. */
  lemma {:induction false} FlatMapPermutation<T, U>(a: seq<T>, b: seq<T>, f: T -> seq<U>)
    requires multiset(a) == multiset(b)
    ensures multiset(FlatMap(a, f)) == multiset(FlatMap(b, f))
    decreases |a|
  {
    if |a| == 0 {
      assert |b| == |multiset(b)| == 0;
    } else {
      var i := PermutationHead(a, b);
      FlatMapPermutation(a[1..], b[..i] + b[i + 1..], f);
      FlatMapRemoveAt(b, i, f);
      assert multiset(FlatMap(a, f)) == multiset(f(a[0])) + multiset(FlatMap(a[1..], f));
    }
  }

  /** What an outcome contributes: its value on success, nothing otherwise. */
  function Found<U, E>(o: Result<seq<U>, E>): seq<U> {
    if o.Success? then o.value else []
  }

  function FoundOf<T, U, E>(g: T -> Result<seq<U>, E>): T -> seq<U> {
    x => Found(g(x))
  }

  /** Runs `g` on every element in order and concatenates the values,
      stopping at the first failure (an `unwrap` inside `flat_map`). */
  function CollectAll<T, U, E>(xs: seq<T>, g: T -> Result<seq<U>, E>): (r: Result<seq<U>, E>)
    ensures r.Failure? <==> exists k :: 0 <= k < |xs| && g(xs[k]).Failure?
    ensures r.Success? ==> r.value == FlatMap(xs, FoundOf(g))
  {
    if |xs| == 0 then Success([])
    else
      assert forall k :: 1 <= k < |xs| ==> xs[1..][k - 1] == xs[k];
      match g(xs[0])
      case Failure(e) => Failure(e)
      case Success(v) =>
        match CollectAll(xs[1..], g)
        case Failure(e) => Failure(e)
        case Success(w) => Success(v + w)
  }

  /** A failure is the failure of the first element, in order, that fails. */
  lemma {:induction false} CollectFirstFailure<T, U, E>(xs: seq<T>, g: T -> Result<seq<U>, E>)
    requires CollectAll(xs, g).Failure?
    ensures exists k :: 0 <= k < |xs| && g(xs[k]) == Failure(CollectAll(xs, g).error) &&
                        forall j :: 0 <= j < k ==> g(xs[j]).Success?
  {
    if g(xs[0]).Success? {
      var rest := xs[1..];
      CollectFirstFailure(rest, g);
      var k :| 0 <= k < |rest| && g(rest[k]) == Failure(CollectAll(rest, g).error) &&
                forall j :: 0 <= j < k ==> g(rest[j]).Success?;
      assert g(xs[k + 1]) == Failure(CollectAll(xs, g).error);
      assert forall j :: 1 <= j < k + 1 ==> xs[j] == rest[j - 1];
    }
  }

  /** Permuting the elements neither changes whether the collection fails nor,
      up to order, what it collects. */
  lemma CollectPermutation<T, U, E>(xs: seq<T>, ys: seq<T>, g: T -> Result<seq<U>, E>)
    requires multiset(xs) == multiset(ys)
    ensures CollectAll(xs, g).Success? <==> CollectAll(ys, g).Success?
    ensures CollectAll(xs, g).Success? ==> multiset(CollectAll(xs, g).value) == multiset(CollectAll(ys, g).value)
  {
    if CollectAll(xs, g).Failure? {
      var k :| 0 <= k < |xs| && g(xs[k]).Failure?;
      assert xs[k] in multiset(ys);
    }
    if CollectAll(ys, g).Failure? {
      var k :| 0 <= k < |ys| && g(ys[k]).Failure?;
      assert ys[k] in multiset(xs);
    }
    if CollectAll(xs, g).Success? {
      FlatMapPermutation(xs, ys, FoundOf(g));
    }
  }

  /** The present values among `os`, in order (`flatten` over options),
      defined from the last element backwards. */
  function Somes<T>(os: seq<Option<T>>): (vs: seq<T>)
    ensures |vs| <= |os|
  {
    if |os| == 0 then []
    else Somes(os[..|os| - 1]) + (if os[|os| - 1].Some? then [os[|os| - 1].value] else [])
  }

  /** `Somes` read from the front: the first value if present, then the rest's. */
  lemma {:induction false} SomesCons<T>(os: seq<Option<T>>)
    requires 0 < |os|
    ensures Somes(os) == (if os[0].Some? then [os[0].value] else []) + Somes(os[1..])
    decreases |os|
  {
    var n := |os| - 1;
    var last := if os[n].Some? then [os[n].value] else [];
    var head := if os[0].Some? then [os[0].value] else [];
    if n == 0 {
      assert os[..n] == [] && os[1..] == [];
    } else {
      var init := os[..n];
      SomesCons(init);
      assert os[1..][..n - 1] == init[1..];
      assert os[1..][n - 1] == os[n];
      assert Somes(os) == (head + Somes(init[1..])) + last;
    }
  }

  /** Every value of `Somes(os)` is present in `os`, and every present value
      of `os` is kept. */
  lemma {:induction false} SomesMembers<T>(os: seq<Option<T>>)
    ensures forall j :: 0 <= j < |Somes(os)| ==> exists k :: 0 <= k < |os| && os[k] == Some(Somes(os)[j])
    ensures forall k :: 0 <= k < |os| && os[k].Some? ==> os[k].value in Somes(os)
    decreases |os|
  {
    if 0 < |os| {
      var n := |os| - 1;
      var init := os[..n];
      SomesMembers(init);
      var prev, vs := Somes(init), Somes(os);
      assert vs == prev + (if os[n].Some? then [os[n].value] else []);
      forall j | 0 <= j < |vs|
        ensures exists k :: 0 <= k < |os| && os[k] == Some(vs[j])
      {
        if j < |prev| {
          var k :| 0 <= k < |init| && init[k] == Some(prev[j]);
          assert os[k] == Some(vs[j]);
        } else {
          assert os[n] == Some(vs[j]);
        }
      }
      forall k | 0 <= k < |os| && os[k].Some?
        ensures os[k].value in vs
      {
        if k < n {
          assert init[k] == os[k];
        }
      }
    } else {
      assert Somes(os) == [];
    }
  }

  /** `f` applied to every element, in order (`map` over a partial function). */
  function MapAll<T, U>(s: seq<T>, f: T --> U): (r: seq<U>)
    requires forall i :: 0 <= i < |s| ==> f.requires(s[i])
    ensures |r| == |s|
    ensures forall i :: 0 <= i < |s| ==> r[i] == f(s[i])
  {
    seq(|s|, i requires 0 <= i < |s| => f(s[i]))
  }

  lemma MapAllTail<T, U>(s: seq<T>, f: T --> U)
    requires 0 < |s| && forall i :: 0 <= i < |s| ==> f.requires(s[i])
    ensures forall i :: 0 <= i < |s[1..]| ==> f.requires(s[1..][i])
    ensures MapAll(s[1..], f) == MapAll(s, f)[1..]
  {
    assert forall i :: 0 <= i < |s[1..]| ==> s[1..][i] == s[i + 1];
  }
}

=== FILE: int32.dfy ===
/** The range of Rust's `i32`. The model computes with unbounded integers and
    states, as preconditions, that the source's 32-bit arithmetic does not overflow. */
module Int32 {

  const MIN: int := -0x8000_0000
  const MAX: int := 0x7fff_ffff

  predicate InRange(x: int) {
    MIN <= x <= MAX
  }
}

=== FILE: name_counts.dfy ===
/** The grouped report of one chunk: how many of its matches carry each exact
    block name (the `fold` into a `HashMap` in `main`). */
module NameCounts {
  import opened ChunkScan

  /** The number of matches named exactly `name`. */
  function CountName(blocks: seq<BlockMatch>, name: string): nat {
    if |blocks| == 0 then 0
    else CountName(blocks[..|blocks| - 1], name) + (if blocks[|blocks| - 1].name == name then 1 else 0)
  }

  /** One step of the fold: `*acc.entry(name).or_insert(0) += 1`. */
  function Bump(m: map<string, nat>, n: string): map<string, nat> {
    m[n := (if n in m then m[n] else 0) + 1]
  }

  /** Folds the matches into a map from name to count, inserting 0 for a new
      name and adding one per match. */
  function TallyNames(blocks: seq<BlockMatch>): (m: map<string, nat>)
    ensures forall n :: n in m <==> exists k :: 0 <= k < |blocks| && blocks[k].name == n
    ensures forall n :: n in m ==> m[n] == CountName(blocks, n)
    ensures forall n :: n !in m ==> CountName(blocks, n) == 0
  {
    if |blocks| == 0 then map[]
    else
      var prev := TallyNames(blocks[..|blocks| - 1]);
      var n := blocks[|blocks| - 1].name;
      assert forall k :: 0 <= k < |blocks| - 1 ==> blocks[..|blocks| - 1][k] == blocks[k];
      Bump(prev, n)
  }

  /** The distinct names of the matches, in order of first occurrence. */
  function DistinctNames(blocks: seq<BlockMatch>): (ns: seq<string>)
    ensures forall i, j :: 0 <= i < j < |ns| ==> ns[i] != ns[j]
    ensures forall n :: n in ns <==> exists k :: 0 <= k < |blocks| && blocks[k].name == n
  {
    if |blocks| == 0 then []
    else
      var prev := DistinctNames(blocks[..|blocks| - 1]);
      var n := blocks[|blocks| - 1].name;
      assert forall k :: 0 <= k < |blocks| - 1 ==> blocks[..|blocks| - 1][k] == blocks[k];
      if n in prev then prev else prev + [n]
  }

  /** The sum of the counts that `m` holds for the names `ns`. */
  function SumCounts(m: map<string, nat>, ns: seq<string>): nat
    requires forall n :: n in ns ==> n in m
  {
    if |ns| == 0 then 0 else SumCounts(m, ns[..|ns| - 1]) + m[ns[|ns| - 1]]
  }

  lemma {:induction false} SumCountsSame(m: map<string, nat>, m': map<string, nat>, ns: seq<string>)
    requires forall n :: n in ns ==> n in m && n in m' && m[n] == m'[n]
    ensures SumCounts(m, ns) == SumCounts(m', ns)
  {
    if |ns| > 0 {
      SumCountsSame(m, m', ns[..|ns| - 1]);
    }
  }

  /** Adding one to the count of a name listed once adds one to the sum. */
  lemma {:induction false} SumCountsIncrement(m: map<string, nat>, ns: seq<string>, n: string)
    requires forall x :: x in ns ==> x in m
    requires forall i, j :: 0 <= i < j < |ns| ==> ns[i] != ns[j]
    requires n in ns
    ensures SumCounts(Bump(m, n), ns) == SumCounts(m, ns) + 1
  {
    var init, last := ns[..|ns| - 1], ns[|ns| - 1];
    assert ns == init + [last];
    if last == n {
      assert n !in init;
      SumCountsSame(Bump(m, n), m, init);
    } else {
      SumCountsIncrement(m, init, n);
    }
  }

  /** The distinct names are exactly the keys of the tally. */
  lemma SameNames(blocks: seq<BlockMatch>)
    ensures forall n :: n in DistinctNames(blocks) <==> n in TallyNames(blocks)
  {
  }

  /** One more match: the tally is bumped at its name, and a name not seen
      before is appended to the distinct names. */
  lemma TallyStep(blocks: seq<BlockMatch>)
    requires 0 < |blocks|
    ensures var rest, n := blocks[..|blocks| - 1], blocks[|blocks| - 1].name;
            && TallyNames(blocks) == Bump(TallyNames(rest), n)
            && (n in TallyNames(rest) ==> DistinctNames(blocks) == DistinctNames(rest))
            && (n !in TallyNames(rest) ==> DistinctNames(blocks) == DistinctNames(rest) + [n])
  {
    SameNames(blocks[..|blocks| - 1]);
  }

  lemma SumCountsNew(m: map<string, nat>, ns: seq<string>, n: string)
    requires forall x :: x in ns ==> x in m
    requires n !in m
    ensures SumCounts(Bump(m, n), ns + [n]) == SumCounts(m, ns) + 1
  {
    assert (ns + [n])[..|ns|] == ns;
    SumCountsSame(Bump(m, n), m, ns);
  }

  /** The counts of one chunk, summed over its distinct names (each name once,
      so over every key of the map), add up to its number of matches. */
  lemma {:induction false} TallyTotal(blocks: seq<BlockMatch>)
    ensures forall n :: n in DistinctNames(blocks) ==> n in TallyNames(blocks)
    ensures SumCounts(TallyNames(blocks), DistinctNames(blocks)) == |blocks|
  {
    SameNames(blocks);
    if |blocks| > 0 {
      var rest := blocks[..|blocks| - 1];
      var n := blocks[|blocks| - 1].name;
      TallyTotal(rest);
      SameNames(rest);
      TallyStep(blocks);
      if n in TallyNames(rest) {
        SumCountsIncrement(TallyNames(rest), DistinctNames(rest), n);
      } else {
        SumCountsNew(TallyNames(rest), DistinctNames(rest), n);
      }
    }
  }
}

=== FILE: region_name.dfy ===
/** The region origin read from a region file's path (`region_coordinates`).

    The path is searched, unanchored, for the pattern `r\.(-?\d+).(-?\d+)\.mca`
    with leftmost-first semantics; the two groups are parsed as `i32` region
    indices and each is scaled by 32 chunks of 16 blocks. */
module RegionName {
  import opened Wrappers
  import opened Decimal
  import Int32

  /** Blocks along one side of a region: 32 chunks of 16 blocks. */
  const REGION_SIZE: int := 32 * 16

  /** One match of the pattern inside a path: it starts at `start` with "r.",
      the first group spans [start + 2, end1), the unescaped `.` matches the
      character at end1, the second group spans [end1 + 1, end2), and ".mca"
      occupies [end2, end2 + 4). */
  datatype Match = Match(start: int, end1: int, end2: int)

  /** The text `-?\d+` matches as a whole. */
  predicate SignedDigits(t: string) {
    if 0 < |t| && t[0] == '-' then 2 <= |t| && AllDigits(t[1..]) else 1 <= |t| && AllDigits(t)
  }

  /** "r." at `start`, then the first group up to `end1`. */
  predicate HeadAt(s: string, start: int, end1: int) {
    && 0 <= start && start + 2 <= end1 <= |s|
    && s[start] == 'r' && s[start + 1] == '.'
    && SignedDigits(s[start + 2..end1])
  }

  /** Any character but a newline at `end1`, the second group up to `end2`, then ".mca". */
  predicate TailAt(s: string, end1: int, end2: int) {
    && 0 <= end1 && end1 + 1 <= end2 && end2 + 4 <= |s|
    && s[end1] != '\n'
    && SignedDigits(s[end1 + 1..end2])
    && McaAt(s, end2)
  }

  /** The literal `\.mca` at `e`. */
  predicate McaAt(s: string, e: int) {
    0 <= e && e + 4 <= |s| && s[e] == '.' && s[e + 1] == 'm' && s[e + 2] == 'c' && s[e + 3] == 'a'
  }

  predicate IsMatch(s: string, m: Match) {
    HeadAt(s, m.start, m.end1) && TailAt(s, m.end1, m.end2)
  }

  /** Length of the run of ASCII digits starting at `k`. */
  function DigitRun(s: string, k: nat): (n: nat)
    requires k <= |s|
    ensures k + n <= |s|
    ensures forall j :: k <= j < k + n ==> IsDigit(s[j])
    ensures k + n == |s| || !IsDigit(s[k + n])
    decreases |s| - k
  {
    if k < |s| && IsDigit(s[k]) then 1 + DigitRun(s, k + 1) else 0
  }

  /** Where the optional minus sign of a group starting at `b` ends: `-?` takes
      a minus sign whenever one is there (without it `\d+` would fail on it). */
  function SignEnd(s: string, b: nat): nat
    requires b <= |s|
  {
    if b < |s| && s[b] == '-' then b + 1 else b
  }

  /** `SignedDigits` of a slice, read off positions of `s`. */
  lemma SignedDigitsAt(s: string, b: nat, e: nat)
    requires b <= e <= |s|
    ensures SignedDigits(s[b..e]) <==>
              SignEnd(s, b) < e && forall j :: SignEnd(s, b) <= j < e ==> IsDigit(s[j])
  {
    var t := s[b..e];
    var q := SignEnd(s, b);
    if SignedDigits(t) {
      forall j | q <= j < e
        ensures IsDigit(s[j])
      {
        if 0 < |t| && t[0] == '-' {
          assert s[j] == t[1..][j - b - 1];
        } else {
          assert s[j] == t[j - b];
        }
      }
    }
    if q < e && forall j :: q <= j < e ==> IsDigit(s[j]) {
      if q == b + 1 {
        assert t[0] == '-';
        assert forall i :: 0 <= i < |t[1..]| ==> t[1..][i] == s[b + 1 + i];
      } else {
        assert forall i :: 0 <= i < |t| ==> t[i] == s[b + i];
      }
    }
  }

  /** A digit run bounded by a non-digit has exactly the length `DigitRun` reports. */
  lemma DigitRunExact(s: string, q: nat, e: nat)
    requires q <= e <= |s|
    requires forall j :: q <= j < e ==> IsDigit(s[j])
    ensures e <= q + DigitRun(s, q)
    ensures e < |s| && !IsDigit(s[e]) ==> e == q + DigitRun(s, q)
  {
  }

  /** The tail after the any-character at `end1` matches exactly when the
      longest digit run after the optional sign is followed by ".mca". */
  lemma TailForced(s: string, end1: nat, e2: int)
    requires end1 < |s|
    ensures var q := SignEnd(s, end1 + 1);
            var n := DigitRun(s, q);
            TailAt(s, end1, e2) <==> s[end1] != '\n' && 1 <= n && e2 == q + n && McaAt(s, e2)
  {
    var q := SignEnd(s, end1 + 1);
    var n := DigitRun(s, q);
    if TailAt(s, end1, e2) {
      SignedDigitsAt(s, end1 + 1, e2);
      DigitRunExact(s, q, e2);
    }
    if s[end1] != '\n' && 1 <= n && e2 == q + n && McaAt(s, e2) {
      SignedDigitsAt(s, end1 + 1, e2);
    }
  }

  /** The second group and ".mca" after the any-character: only the longest digit
      run can be followed by '.', so the end of the second group is forced. */
  function SecondGroupEnd(s: string, end1: nat): (r: Option<nat>)
    requires end1 < |s|
    ensures r.Some? ==> TailAt(s, end1, r.value)
    ensures forall e2 :: TailAt(s, end1, e2) ==> r == Some(e2)
  {
    var q := SignEnd(s, end1 + 1);
    var n := DigitRun(s, q);
    assert forall e2 :: TailAt(s, end1, e2) <==> s[end1] != '\n' && 1 <= n && e2 == q + n && McaAt(s, e2) by {
      forall e2 {
        TailForced(s, end1, e2);
      }
    }
    if s[end1] != '\n' && 1 <= n && McaAt(s, q + n) then Some(q + n) else None
  }

  /** The backtracking over the first group: `\d+` is greedy, so the first group
      tries lengths `len`, `len - 1`, ..., 1 of the digit run starting at `q`. */
  function TryFirstGroup(s: string, start: nat, q: nat, len: nat): (r: Option<Match>)
    requires q + len <= |s|
    ensures r.Some? ==> r.value.start == start && q < r.value.end1 <= q + len
    ensures r.Some? ==> TailAt(s, r.value.end1, r.value.end2)
    ensures forall e1, e2 :: q < e1 <= q + len && TailAt(s, e1, e2) ==> r.Some? && e1 <= r.value.end1
    decreases len
  {
    if len == 0 then None
    else if q + len < |s| then
      match SecondGroupEnd(s, q + len)
      case Some(e2) => Some(Match(start, q + len, e2))
      case None => TryFirstGroup(s, start, q, len - 1)
    else
      TryFirstGroup(s, start, q, len - 1)
  }

  /** The head at `start` reaching `end1` matches exactly when "r." is at `start`
      and `end1` ends a non-empty prefix of the digit run after the optional sign. */
  lemma HeadForced(s: string, start: nat, end1: int)
    requires start + 2 <= |s| && s[start] == 'r' && s[start + 1] == '.'
    ensures var q := SignEnd(s, start + 2);
            HeadAt(s, start, end1) <==> q < end1 <= q + DigitRun(s, q)
  {
    var q := SignEnd(s, start + 2);
    if HeadAt(s, start, end1) {
      SignedDigitsAt(s, start + 2, end1);
      DigitRunExact(s, q, end1);
    }
    if q < end1 <= q + DigitRun(s, q) {
      SignedDigitsAt(s, start + 2, end1);
    }
  }

  /** The preferred match starting exactly at `start`, if any: the one whose
      first group is longest. */
  function MatchAt(s: string, start: nat): (r: Option<Match>)
    requires start <= |s|
    ensures r.Some? ==> r.value.start == start && IsMatch(s, r.value)
    ensures forall e1, e2 :: IsMatch(s, Match(start, e1, e2)) ==> r.Some? && e1 <= r.value.end1
  {
    if start + 2 <= |s| && s[start] == 'r' && s[start + 1] == '.' then
      var q := SignEnd(s, start + 2);
      assert forall e1 :: HeadAt(s, start, e1) <==> q < e1 <= q + DigitRun(s, q) by {
        forall e1 {
          HeadForced(s, start, e1);
        }
      }
      TryFirstGroup(s, start, q, DigitRun(s, q))
    else
      None
  }

  /** The leftmost match at or after `from`, as the regex search reports it. */
  function FirstMatchFrom(s: string, from: nat): (r: Option<Match>)
    requires from <= |s|
    ensures r.Some? ==> from <= r.value.start && IsMatch(s, r.value)
    ensures r.Some? ==> forall e1, e2 :: IsMatch(s, Match(r.value.start, e1, e2)) ==> e1 <= r.value.end1
    ensures r.Some? ==> forall st, e1, e2 :: from <= st < r.value.start ==> !IsMatch(s, Match(st, e1, e2))
    ensures r.None? ==> forall st, e1, e2 :: from <= st ==> !IsMatch(s, Match(st, e1, e2))
    decreases |s| - from
  {
    var here := MatchAt(s, from);
    if here.Some? then here
    else if from == |s| then None
    else FirstMatchFrom(s, from + 1)
  }

  /** Errors of `region_coordinates`: no match, an unparsable group, or an
      overflow of the `* 32 * 16` scaling (a panic in a debug build). */
  datatype NameError = NotRegionName | BadIndex(kind: ParseIntError) | Overflow

  /** The two captured groups of the leftmost match, if there is one. */
  function Captures(path: string): (r: Option<(string, string)>)
    ensures r.None? <==> FirstMatchFrom(path, 0).None?
    ensures r.Some? ==> SignedDigits(r.value.0) && SignedDigits(r.value.1)
  {
    match FirstMatchFrom(path, 0)
    case None => None
    case Some(m) => Some((path[m.start + 2..m.end1], path[m.end1 + 1..m.end2]))
  }

  /** A path yields no groups exactly when the pattern matches nowhere in it. */
  lemma NoCapturesIffNoMatch(path: string)
    ensures Captures(path).None? <==> forall st, e1, e2 :: !IsMatch(path, Match(st, e1, e2))
  {
  }

  /** The two region indices, each parsed as an `i32`. */
  function RegionIndices(path: string): (r: Result<(int, int), NameError>)
    ensures r.Success? ==> Int32.InRange(r.value.0) && Int32.InRange(r.value.1)
    ensures r == Failure(NotRegionName) <==> Captures(path).None?
  {
    match Captures(path)
    case None => Failure(NotRegionName)
    case Some((g1, g2)) =>
      match ParseI32(g1)
      case Failure(e) => Failure(BadIndex(e))
      case Success(x) =>
        match ParseI32(g2)
        case Failure(e) => Failure(BadIndex(e))
        case Success(z) => Success((x, z))
  }

  /** Scales one region index to a block coordinate, failing where the `i32`
      multiplication `index * 32 * 16` overflows. */
  function ScaleIndex(index: int): (r: Option<int>)
    requires Int32.InRange(index)
    ensures r.Some? <==> Int32.InRange(index * REGION_SIZE)
    ensures r.Some? ==> r.value == index * REGION_SIZE
  {
    if Int32.InRange(index * 32) && Int32.InRange(index * 32 * 16) then Some(index * 32 * 16) else None
  }

  /** `region_coordinates`: the block coordinates of the region's corner. The
      first group is parsed and scaled before the second is parsed. The
      coordinates are the parsed region indices times 512; they are reported
      exactly when both indices parse and both products fit `i32`. */
  function RegionCoordinates(path: string): (r: Result<(int, int), NameError>)
    ensures r.Success? ==> Int32.InRange(r.value.0) && Int32.InRange(r.value.1)
    ensures r.Success? <==>
              && RegionIndices(path).Success?
              && Int32.InRange(RegionIndices(path).value.0 * REGION_SIZE)
              && Int32.InRange(RegionIndices(path).value.1 * REGION_SIZE)
    ensures r.Success? ==>
              r.value == (RegionIndices(path).value.0 * REGION_SIZE, RegionIndices(path).value.1 * REGION_SIZE)
    ensures r == Failure(NotRegionName) <==> RegionIndices(path) == Failure(NotRegionName)
  {
    match Captures(path)
    case None => Failure(NotRegionName)
    case Some((g1, g2)) =>
      match ParseI32(g1)
      case Failure(e) => Failure(BadIndex(e))
      case Success(x) =>
        match ScaleIndex(x)
        case None => Failure(Overflow)
        case Some(rx) =>
          match ParseI32(g2)
          case Failure(e) => Failure(BadIndex(e))
          case Success(z) =>
            match ScaleIndex(z)
            case None => Failure(Overflow)
            case Some(rz) => Success((rx, rz))
  }

  /** The canonical file name of region (x, z), as the game writes it. */
  function CanonicalName(x: int, z: int): string {
    "r." + IntToString(x) + "." + IntToString(z) + ".mca"
  }

  /** A directory prefix in which no match can start: every 'r' in it is
      followed, inside the prefix, by something other than '.'. */
  predicate NoRegionMarker(dir: string) {
    forall i :: 0 <= i < |dir| && dir[i] == 'r' ==> i + 1 < |dir| && dir[i + 1] != '.'
  }

  lemma SignedDigitsOfIntToString(n: int)
    ensures SignedDigits(IntToString(n))
  {
    var t := IntToString(n);
    if n < 0 {
      assert t[1..] == NatToString(-n);
    }
  }

  /** A match at `k` is the one the search reports when nothing matches before
      `k` and the first group cannot be extended (a non-digit follows it). */
  lemma ReportedMatch(s: string, k: nat, e1: int, e2: int)
    requires IsMatch(s, Match(k, e1, e2))
    requires forall st, x1, x2 :: 0 <= st < k ==> !IsMatch(s, Match(st, x1, x2))
    requires !IsDigit(s[e1])
    ensures FirstMatchFrom(s, 0) == Some(Match(k, e1, e2))
  {
    var m := FirstMatchStart(s, k, e1, e2);
    HeadEndUnique(s, k, e1, m.end1);
    TailEndUnique(s, e1, e2, m.end2);
  }

  /** A first group followed by a non-digit cannot be extended. */
  lemma HeadEndUnique(s: string, k: nat, e1: int, e1': int)
    requires HeadAt(s, k, e1) && HeadAt(s, k, e1') && e1 <= e1'
    requires e1 < |s| && !IsDigit(s[e1])
    ensures e1 == e1'
  {
    var q := SignEnd(s, k + 2);
    HeadForced(s, k, e1');
    HeadForced(s, k, e1);
  }

  /** The tail after a given any-character ends at one place only. */
  lemma TailEndUnique(s: string, e1: nat, e2: int, e2': int)
    requires e1 < |s| && TailAt(s, e1, e2) && TailAt(s, e1, e2')
    ensures e2 == e2'
  {
    TailForced(s, e1, e2);
    TailForced(s, e1, e2');
  }

  /** With nothing matching before `k`, the search reports a match starting at
      `k` whose first group is at least as long as any other there. */
  lemma FirstMatchStart(s: string, k: nat, e1: int, e2: int) returns (m: Match)
    requires IsMatch(s, Match(k, e1, e2))
    requires forall st, x1, x2 :: 0 <= st < k ==> !IsMatch(s, Match(st, x1, x2))
    ensures FirstMatchFrom(s, 0) == Some(m)
    ensures m.start == k && e1 <= m.end1 && IsMatch(s, m)
  {
    m := FirstMatchFrom(s, 0).value;
  }

  /** The layout of `dir` + "r.<a>.<b>.mca". */
  lemma NameLayout(dir: string, a: string, b: string)
    ensures var s := dir + ("r." + a + "." + b + ".mca");
            var k := |dir|;
            var e1 := k + 2 + |a|;
            var e2 := e1 + 1 + |b|;
            && |s| == e2 + 4
            && s[..k] == dir
            && s[k] == 'r' && s[k + 1] == '.' && s[e1] == '.'
            && s[k + 2..e1] == a && s[e1 + 1..e2] == b
            && McaAt(s, e2)
  {
  }

  /** No match starts inside a prefix without a region marker. */
  lemma NoMatchInPrefix(dir: string, s: string)
    requires NoRegionMarker(dir)
    requires |dir| < |s| && s[..|dir|] == dir && s[|dir|] == 'r'
    ensures forall st, x1, x2 :: 0 <= st < |dir| ==> !IsMatch(s, Match(st, x1, x2))
  {
  }

  /** A match at `k` whose first group is followed by '.' and before which
      nothing matches yields the groups read off its positions. */
  lemma GroupsAt(s: string, k: nat, e1: nat, e2: nat)
    requires IsMatch(s, Match(k, e1, e2)) && s[e1] == '.'
    requires forall st, x1, x2 :: 0 <= st < k ==> !IsMatch(s, Match(st, x1, x2))
    ensures Captures(s) == Some((s[k + 2..e1], s[e1 + 1..e2]))
  {
    ReportedMatch(s, k, e1, e2);
    CapturesOf(s, Match(k, e1, e2));
  }

  /** The groups are read off the positions of the reported match. */
  lemma CapturesOf(s: string, m: Match)
    requires FirstMatchFrom(s, 0) == Some(m)
    ensures Captures(s) == Some((s[m.start + 2..m.end1], s[m.end1 + 1..m.end2]))
  {
  }

  lemma LayoutIsMatch(s: string, k: nat, e1: nat, e2: nat)
    requires k + 2 <= e1 && e1 + 1 <= e2 && e2 + 4 <= |s|
    requires s[k] == 'r' && s[k + 1] == '.' && s[e1] == '.' && McaAt(s, e2)
    requires SignedDigits(s[k + 2..e1]) && SignedDigits(s[e1 + 1..e2])
    ensures IsMatch(s, Match(k, e1, e2))
  {
  }

  /** In `dir` + "r.<a>.<b>.mca" with two signed digit strings, the search finds
      exactly the groups `a` and `b`. */
  lemma WellFormedNameMatch(dir: string, a: string, b: string)
    requires NoRegionMarker(dir) && SignedDigits(a) && SignedDigits(b)
    ensures Captures(dir + ("r." + a + "." + b + ".mca")) == Some((a, b))
  {
    var s := dir + ("r." + a + "." + b + ".mca");
    var k := |dir|;
    var e1 := k + 2 + |a|;
    var e2 := e1 + 1 + |b|;
    NameLayout(dir, a, b);
    var g1, g2 := s[k + 2..e1], s[e1 + 1..e2];
    assert g1 == a && g2 == b;
    LayoutIsMatch(s, k, e1, e2);
    NoMatchInPrefix(dir, s);
    GroupsAt(s, k, e1, e2);
  }

  /** What the search and the parser make of `dir` + "r.<a>.<b>.mca". */
  lemma WellFormedNameIndices(dir: string, a: string, b: string)
    requires NoRegionMarker(dir) && SignedDigits(a) && SignedDigits(b)
    ensures var s := dir + ("r." + a + "." + b + ".mca");
            RegionIndices(s) ==
              match ParseI32(a)
              case Failure(e) => Failure(BadIndex(e))
              case Success(x) =>
                match ParseI32(b)
                case Failure(e) => Failure(BadIndex(e))
                case Success(z) => Success((x, z))
  {
    WellFormedNameMatch(dir, a, b);
    var s := dir + ("r." + a + "." + b + ".mca");
    assert Captures(s) == Some((a, b));
  }

  /** A canonical name, after a directory prefix without a region marker, yields
      its own region indices. */
  lemma CanonicalIndices(dir: string, x: int, z: int)
    requires NoRegionMarker(dir)
    requires Int32.InRange(x) && Int32.InRange(z)
    ensures RegionIndices(dir + CanonicalName(x, z)) == Success((x, z))
  {
    var a, b := IntToString(x), IntToString(z);
    SignedDigitsOfIntToString(x);
    SignedDigitsOfIntToString(z);
    assert dir + CanonicalName(x, z) == dir + ("r." + a + "." + b + ".mca");
    ParseIntToString(x);
    ParseIntToString(z);
    WellFormedNameIndices(dir, a, b);
  }

  /** `region_coordinates` of a canonical name is (x * 512, z * 512) when both
      products fit `i32`, and fails with the overflow otherwise. */
  lemma CanonicalCoordinates(dir: string, x: int, z: int)
    requires NoRegionMarker(dir)
    requires Int32.InRange(x) && Int32.InRange(z)
    ensures Int32.InRange(x * REGION_SIZE) && Int32.InRange(z * REGION_SIZE) ==>
              RegionCoordinates(dir + CanonicalName(x, z)) == Success((x * REGION_SIZE, z * REGION_SIZE))
    ensures !Int32.InRange(x * REGION_SIZE) ==>
              RegionCoordinates(dir + CanonicalName(x, z)) == Failure(Overflow)
  {
    CanonicalIndices(dir, x, z);
    SignedDigitsOfIntToString(x);
    SignedDigitsOfIntToString(z);
    WellFormedNameMatch(dir, IntToString(x), IntToString(z));
    ParseIntToString(x);
  }

  /** A path in which no 'r' is followed by '.' is not a region file name. */
  lemma UnmarkedPathRejected(path: string)
    requires NoRegionMarker(path)
    ensures RegionIndices(path) == Failure(NotRegionName)
    ensures RegionCoordinates(path) == Failure(NotRegionName)
  {
    forall st, e1, e2
      ensures !IsMatch(path, Match(st, e1, e2))
    {
    }
  }

  /** A well-formed name whose first index does not fit `i32` is rejected by
      the parser, with the overflow in the direction of the index. */
  lemma OutOfRangeIndexRejected(x: int, z: int)
    requires !Int32.InRange(x) && Int32.InRange(z)
    ensures var kind := if x > 0 then PosOverflow else NegOverflow;
            && RegionIndices(CanonicalName(x, z)) == Failure(BadIndex(kind))
            && RegionCoordinates(CanonicalName(x, z)) == Failure(BadIndex(kind))
  {
    SignedDigitsOfIntToString(x);
    SignedDigitsOfIntToString(z);
    assert NoRegionMarker([]);
    assert [] + CanonicalName(x, z) == "r." + IntToString(x) + "." + IntToString(z) + ".mca";
    WellFormedNameMatch([], IntToString(x), IntToString(z));
    if x > 0 {
      ParseRejectsAboveRange(x);
    } else {
      ParseRejectsBelowRange(-x);
    }
  }

  /** The backtracking step of the first group: in "r.<d1><d2><d3>.mca" with three
      digits, the greedy first group gives back digits until the tail matches, so
      the groups are <d1> and <d3>. */
  lemma BacktrackedCaptures(s: string)
    requires |s| == 9 && s[0] == 'r' && s[1] == '.' && s[5] == '.'
    requires IsDigit(s[2]) && IsDigit(s[3]) && IsDigit(s[4])
    requires s[6] == 'm' && s[7] == 'c' && s[8] == 'a'
    ensures Captures(s) == Some((s[2..3], s[4..5]))
  {
    BacktrackedMatch(s);
    var m := FirstMatchStart(s, 0, 3, 5);
    HeadForced(s, 0, m.end1);
    NoTailAfter(s, 4);
    NoTailAfter(s, 5);
    assert m.end1 == 3;
    TailEndUnique(s, 3, 5, m.end2);
    CapturesOf(s, m);
  }

  /** The match of "r.<d1><d2><d3>.mca" that gives back two digits, and the
      digit run it gives them back from. */
  lemma BacktrackedMatch(s: string)
    requires |s| == 9 && s[0] == 'r' && s[1] == '.' && s[5] == '.'
    requires IsDigit(s[2]) && IsDigit(s[3]) && IsDigit(s[4])
    requires s[6] == 'm' && s[7] == 'c' && s[8] == 'a'
    ensures IsMatch(s, Match(0, 3, 5))
    ensures SignEnd(s, 2) == 2 && DigitRun(s, 2) == 3
  {
    assert McaAt(s, 5);
    SignedDigitsAt(s, 2, 3);
    SignedDigitsAt(s, 4, 5);
  }

  /** No tail can follow an any-character that is followed by neither a sign
      nor a digit. */
  lemma NoTailAfter(s: string, e1: nat)
    requires e1 + 1 < |s| && s[e1 + 1] != '-' && !IsDigit(s[e1 + 1])
    ensures forall e2 :: !TailAt(s, e1, e2)
  {
    forall e2 {
      TailForced(s, e1, e2);
    }
  }

  /** The unescaped middle `.` lets a single number split into two groups:
      "r.123.mca" reads as region (1, 3). */
  lemma SplitNumberName()
    ensures RegionIndices("r.123.mca") == Success((1, 3))
    ensures RegionCoordinates("r.123.mca") == Success((512, 1536))
  {
    var s := "r.123.mca";
    BacktrackedCaptures(s);
    ParseSingleDigit(s[2..3]);
    ParseSingleDigit(s[4..5]);
  }

  /** "r.0.0.mca" is the region whose corner is the world origin. */
  lemma OriginRegionName()
    ensures RegionIndices("r.0.0.mca") == Success((0, 0))
    ensures RegionCoordinates("r.0.0.mca") == Success((0, 0))
  {
    var s := "r.0.0.mca";
    assert McaAt(s, 5);
    SignedDigitsAt(s, 2, 3);
    SignedDigitsAt(s, 4, 5);
    assert IsMatch(s, Match(0, 3, 5));
    GroupsAt(s, 0, 3, 5);
    ParseSingleDigit(s[2..3]);
    ParseSingleDigit(s[4..5]);
  }
}

=== FILE: region_scan.dfy ===
/** `find_blocks`: one region file is resolved to its corner, measured against
    the distance filter as a whole, and then scanned chunk by chunk. */
module RegionScan {
  import opened Wrappers
  import Int32
  import opened Substring
  import opened Distance
  import opened RegionName
  import opened ChunkScan
  import opened Flatten

  /** One item of the region's chunk iterator: an entry the container could
      not read (dropped by `flatten`), a chunk payload that does not decode,
      or a decoded chunk. */
  datatype ChunkEntry = Unreadable | Undecodable | Decoded(chunk: Chunk)

  /** The content of a region file: a container that cannot be opened, or its
      chunk entries in iteration order. */
  datatype RegionData = Corrupt | Entries(entries: seq<ChunkEntry>)

  /** A region file: its path and its content. */
  datatype RegionFile = RegionFile(path: string, data: RegionData)

  /** Why `find_blocks` fails: a bad path, an unreadable region container, or
      a chunk that does not decode. */
  datatype ScanError = BadName(nameError: NameError) | BadRegion | BadChunk

  /** A decoded chunk can be scanned without `i32` overflow. */
  predicate EntrySafe(regionX: int, regionZ: int, filter: Option<DistanceFilter>, e: ChunkEntry, sub: string) {
    e.Decoded? ==> ChunkSafe(regionX, regionZ, filter, e.chunk, sub)
  }

  /** The chunk loop reaches entry `k`: no entry before it fails to decode. */
  predicate Reached(entries: seq<ChunkEntry>, k: int) {
    forall j :: 0 <= j < k && j < |entries| ==> !entries[j].Undecodable?
  }

  /** Every entry the chunk loop reaches can be scanned without overflow;
      nothing is required of the entries after the first one that does not
      decode, since the loop stops there. */
  predicate EntriesSafe(regionX: int, regionZ: int, filter: Option<DistanceFilter>, entries: seq<ChunkEntry>, sub: string) {
    forall k :: 0 <= k < |entries| && Reached(entries, k) ==> EntrySafe(regionX, regionZ, filter, entries[k], sub)
  }

  predicate EveryEntrySafe(regionX: int, regionZ: int, filter: Option<DistanceFilter>, entries: seq<ChunkEntry>, sub: string) {
    forall k :: 0 <= k < |entries| ==> EntrySafe(regionX, regionZ, filter, entries[k], sub)
  }

  /** The `BlockResults` an entry yields, if any: a decoded, fully generated,
      unpruned chunk yields one exactly when it has a matching block, reported
      at its world origin with exactly its matching blocks; no other entry
      yields one. */
  function EntryResult(regionX: int, regionZ: int, filter: Option<DistanceFilter>, e: ChunkEntry, sub: string)
    : (r: Option<BlockResults>)
    requires EntrySafe(regionX, regionZ, filter, e, sub)
    ensures r.Some? ==>
              && e.Decoded?
              && e.chunk.status == FULL_STATUS
              && r.value.chunk == ChunkOrigin(regionX, regionZ, e.chunk)
              && !Pruned(r.value.chunk.x, r.value.chunk.z, filter)
              && 0 < |r.value.blocks|
              && ReportsExactly(r.value.chunk, r.value.blocks, e.chunk.blocks, sub)
    ensures && e.Decoded?
            && e.chunk.status == FULL_STATUS
            && !Pruned(ChunkOrigin(regionX, regionZ, e.chunk).x, ChunkOrigin(regionX, regionZ, e.chunk).z, filter)
            && (exists i :: 0 <= i < |e.chunk.blocks| && Contains(e.chunk.blocks[i], sub))
            ==> r.Some?
  {
    if e.Decoded? then ScanChunk(regionX, regionZ, filter, e.chunk, sub) else None
  }

  /** `EntryResult` as a function of the entry alone. */
  function Outcome(regionX: int, regionZ: int, filter: Option<DistanceFilter>, sub: string): ChunkEntry --> Option<BlockResults> {
    e requires EntrySafe(regionX, regionZ, filter, e, sub) => EntryResult(regionX, regionZ, filter, e, sub)
  }

  /** The result of each entry, in entry order. */
  function EntryResults(regionX: int, regionZ: int, filter: Option<DistanceFilter>, entries: seq<ChunkEntry>, sub: string)
    : seq<Option<BlockResults>>
    requires EveryEntrySafe(regionX, regionZ, filter, entries, sub)
  {
    MapAll(entries, Outcome(regionX, regionZ, filter, sub))
  }

  /** The results of the entries that yield one, in entry order: what the
      chunk loop collects when no chunk fails to decode. */
  function Kept(regionX: int, regionZ: int, filter: Option<DistanceFilter>, entries: seq<ChunkEntry>, sub: string)
    : seq<BlockResults>
    requires EveryEntrySafe(regionX, regionZ, filter, entries, sub)
  {
    Somes(EntryResults(regionX, regionZ, filter, entries, sub))
  }

  /** `Kept` read from the front: the first entry's result, then the rest's. */
  lemma KeptCons(rx: int, rz: int, filter: Option<DistanceFilter>, entries: seq<ChunkEntry>, sub: string)
    requires 0 < |entries| && EveryEntrySafe(rx, rz, filter, entries, sub)
    ensures EveryEntrySafe(rx, rz, filter, entries[1..], sub)
    ensures var head := EntryResult(rx, rz, filter, entries[0], sub);
            Kept(rx, rz, filter, entries, sub) ==
              (if head.Some? then [head.value] else []) + Kept(rx, rz, filter, entries[1..], sub)
  {
    MapAllTail(entries, Outcome(rx, rz, filter, sub));
    SomesCons(EntryResults(rx, rz, filter, entries, sub));
  }

  /** Every collected result is what some entry yields, and every entry that
      yields a result is represented. */
  lemma KeptMembers(rx: int, rz: int, filter: Option<DistanceFilter>, entries: seq<ChunkEntry>, sub: string)
    requires EveryEntrySafe(rx, rz, filter, entries, sub)
    ensures var rs := Kept(rx, rz, filter, entries, sub);
            forall j :: 0 <= j < |rs| ==>
              exists k :: 0 <= k < |entries| && EntryResult(rx, rz, filter, entries[k], sub) == Some(rs[j])
    ensures var rs := Kept(rx, rz, filter, entries, sub);
            forall k :: 0 <= k < |entries| && EntryResult(rx, rz, filter, entries[k], sub).Some? ==>
              EntryResult(rx, rz, filter, entries[k], sub).value in rs
  {
    var os := EntryResults(rx, rz, filter, entries, sub);
    var rs := Kept(rx, rz, filter, entries, sub);
    SomesMembers(os);
    forall j | 0 <= j < |rs|
      ensures exists k :: 0 <= k < |entries| && EntryResult(rx, rz, filter, entries[k], sub) == Some(rs[j])
    {
      var k :| 0 <= k < |os| && os[k] == Some(rs[j]);
      assert EntryResult(rx, rz, filter, entries[k], sub) == os[k];
    }
    forall k | 0 <= k < |entries| && EntryResult(rx, rz, filter, entries[k], sub).Some?
      ensures EntryResult(rx, rz, filter, entries[k], sub).value in rs
    {
      assert os[k] == EntryResult(rx, rz, filter, entries[k], sub);
    }
  }

  /** Every fully generated, unpruned chunk with a matching block is
      reported by a chunk loop that succeeds. */
  lemma MatchingChunkReported(rx: int, rz: int, filter: Option<DistanceFilter>, entries: seq<ChunkEntry>, sub: string, k: nat)
    requires EntriesSafe(rx, rz, filter, entries, sub)
    requires ScanEntries(rx, rz, filter, entries, sub).Success?
    requires k < |entries| && entries[k].Decoded? && entries[k].chunk.status == FULL_STATUS
    requires var origin := ChunkOrigin(rx, rz, entries[k].chunk);
             !Pruned(origin.x, origin.z, filter)
    requires exists i :: 0 <= i < |entries[k].chunk.blocks| && Contains(entries[k].chunk.blocks[i], sub)
    ensures EntryResult(rx, rz, filter, entries[k], sub).Some?
    ensures EntryResult(rx, rz, filter, entries[k], sub).value in ScanEntries(rx, rz, filter, entries, sub).value
  {
    KeptMembers(rx, rz, filter, entries, sub);
  }

  /** An entry that decodes before every other is safe when the entries are:
      the rest are exactly the entries the loop reaches after it. */
  lemma SafeAfterFirst(rx: int, rz: int, filter: Option<DistanceFilter>, entries: seq<ChunkEntry>, sub: string)
    requires 0 < |entries| && !entries[0].Undecodable?
    requires EntriesSafe(rx, rz, filter, entries, sub)
    ensures EntrySafe(rx, rz, filter, entries[0], sub)
    ensures EntriesSafe(rx, rz, filter, entries[1..], sub)
  {
    assert Reached(entries, 0);
    var rest := entries[1..];
    forall k | 0 <= k < |rest| && Reached(rest, k)
      ensures EntrySafe(rx, rz, filter, rest[k], sub)
    {
      assert Reached(entries, k + 1);
    }
  }

  /** Without an entry that fails to decode, the loop reaches every entry. */
  lemma SafeWhenDecodable(rx: int, rz: int, filter: Option<DistanceFilter>, entries: seq<ChunkEntry>, sub: string)
    requires EntriesSafe(rx, rz, filter, entries, sub)
    requires forall k :: 0 <= k < |entries| ==> !entries[k].Undecodable?
    ensures EveryEntrySafe(rx, rz, filter, entries, sub)
  {
    forall k | 0 <= k < |entries|
      ensures EntrySafe(rx, rz, filter, entries[k], sub)
    {
      assert Reached(entries, k);
    }
  }

  /** The chunk loop of `find_blocks`. Unreadable entries are skipped; the
      first chunk that does not decode aborts the scan of the region.
      Otherwise the results are those the entries yield, in entry order. */
  function ScanEntries(regionX: int, regionZ: int, filter: Option<DistanceFilter>, entries: seq<ChunkEntry>, sub: string)
    : (r: Result<seq<BlockResults>, ScanError>)
    requires EntriesSafe(regionX, regionZ, filter, entries, sub)
    ensures r.Failure? <==> exists k :: 0 <= k < |entries| && entries[k].Undecodable?
    ensures r.Failure? ==> r.error == BadChunk
    ensures r.Success? ==> EveryEntrySafe(regionX, regionZ, filter, entries, sub)
    ensures r.Success? ==> r.value == Kept(regionX, regionZ, filter, entries, sub)
    decreases |entries|
  {
    if |entries| == 0 then Success([])
    else
      var rest := entries[1..];
      assert forall k :: 0 <= k < |rest| ==> rest[k] == entries[k + 1];
      if entries[0].Undecodable? then Failure(BadChunk)
      else
        SafeAfterFirst(regionX, regionZ, filter, entries, sub);
        match ScanEntries(regionX, regionZ, filter, rest, sub)
        case Failure(e) => Failure(e)
        case Success(found) =>
          SafeWhenDecodable(regionX, regionZ, filter, entries, sub);
          KeptCons(regionX, regionZ, filter, entries, sub);
          match EntryResult(regionX, regionZ, filter, entries[0], sub)
          case None => Success(found)
          case Some(b) => Success([b] + found)
  }

  /** `find_blocks` cannot overflow `i32`: the region test at the corner, and
      the chunk scan of a region that is not pruned. */
  predicate FileSafe(file: RegionFile, filter: Option<DistanceFilter>, sub: string) {
    match RegionCoordinates(file.path)
    case Failure(_) => true
    case Success((rx, rz)) =>
      && TestSafe(rx, rz, filter)
      && (!Pruned(rx, rz, filter) && file.data.Entries? ==> EntriesSafe(rx, rz, filter, file.data.entries, sub))
  }

  /** `find_blocks(filename, stream, block_name, chunk_distance_filter)`. */
  function FindBlocks(file: RegionFile, sub: string, filter: Option<DistanceFilter>)
    : (r: Result<seq<BlockResults>, ScanError>)
    requires FileSafe(file, filter, sub)
    ensures RegionCoordinates(file.path).Failure? ==> r == Failure(BadName(RegionCoordinates(file.path).error))
    ensures RegionCoordinates(file.path).Success? ==>
              var (rx, rz) := RegionCoordinates(file.path).value;
              && (Pruned(rx, rz, filter) ==> r == Success([]))
              && (!Pruned(rx, rz, filter) && file.data.Corrupt? ==> r == Failure(BadRegion))
              && (!Pruned(rx, rz, filter) && file.data.Entries? ==> r == ScanEntries(rx, rz, filter, file.data.entries, sub))
    ensures r.Success? ==> forall j :: 0 <= j < |r.value| ==>
              && 0 < |r.value[j].blocks|
              && forall k :: 0 <= k < |r.value[j].blocks| ==> Contains(r.value[j].blocks[k].name, sub)
  {
    match RegionCoordinates(file.path)
    case Failure(e) => Failure(BadName(e))
    case Success((rx, rz)) =>
      if Pruned(rx, rz, filter) then Success([])
      else
        match file.data
        case Corrupt => Failure(BadRegion)
        case Entries(entries) =>
          var r := ScanEntries(rx, rz, filter, entries, sub);
          if r.Success? then KeptMembers(rx, rz, filter, entries, sub); r else r
  }

  /** Every reported chunk is a fully generated, unpruned chunk of the file,
      reported at its world origin with exactly its matching blocks. */
  lemma ResultsComeFromFullChunks(file: RegionFile, sub: string, filter: Option<DistanceFilter>)
    requires FileSafe(file, filter, sub)
    requires FindBlocks(file, sub, filter).Success?
    ensures var rs := FindBlocks(file, sub, filter).value;
            0 < |rs| ==>
              && RegionCoordinates(file.path).Success?
              && file.data.Entries?
              && var (rx, rz) := RegionCoordinates(file.path).value;
                 forall j :: 0 <= j < |rs| ==> FromFullChunk(rx, rz, filter, file.data.entries, sub, rs[j])
  {
    var rs := FindBlocks(file, sub, filter).value;
    if 0 < |rs| {
      var (rx, rz) := RegionCoordinates(file.path).value;
      assert !Pruned(rx, rz, filter) && file.data.Entries?;
      ScannedFromFullChunks(rx, rz, filter, file.data.entries, sub);
    }
  }

  /** `b` is what some fully generated, unpruned chunk among `entries` yields:
      reported at its world origin with exactly its matching blocks. */
  ghost predicate FromFullChunk(rx: int, rz: int, filter: Option<DistanceFilter>, entries: seq<ChunkEntry>, sub: string, b: BlockResults) {
    exists k :: 0 <= k < |entries| &&
      var e := entries[k];
      && e.Decoded?
      && e.chunk.status == FULL_STATUS
      && b.chunk == ChunkOrigin(rx, rz, e.chunk)
      && !Pruned(b.chunk.x, b.chunk.z, filter)
      && ReportsExactly(b.chunk, b.blocks, e.chunk.blocks, sub)
  }

  lemma ScannedFromFullChunks(rx: int, rz: int, filter: Option<DistanceFilter>, entries: seq<ChunkEntry>, sub: string)
    requires EntriesSafe(rx, rz, filter, entries, sub)
    requires ScanEntries(rx, rz, filter, entries, sub).Success?
    ensures var rs := ScanEntries(rx, rz, filter, entries, sub).value;
            forall j :: 0 <= j < |rs| ==> FromFullChunk(rx, rz, filter, entries, sub, rs[j])
  {
    var rs := ScanEntries(rx, rz, filter, entries, sub).value;
    KeptMembers(rx, rz, filter, entries, sub);
    forall j | 0 <= j < |rs|
      ensures FromFullChunk(rx, rz, filter, entries, sub, rs[j])
    {
      var k :| 0 <= k < |entries| && EntryResult(rx, rz, filter, entries[k], sub) == Some(rs[j]);
      assert entries[k].Decoded?;
    }
  }

  /** Without a filter no region is pruned: a well-named region is scanned in full. */
  lemma NoFilterScansEveryRegion(file: RegionFile, sub: string)
    requires FileSafe(file, None, sub)
    requires RegionCoordinates(file.path).Success? && file.data.Entries?
    ensures FindBlocks(file, sub, None) ==
              ScanEntries(RegionCoordinates(file.path).value.0, RegionCoordinates(file.path).value.1,
                          None, file.data.entries, sub)
  {
  }

  /** A region whose corner fails the filter yields no results, whatever it
      holds: none of its chunks is read. */
  lemma FarCornerSkipsRegion(path: string, data: RegionData, sub: string, filter: Option<DistanceFilter>, rx: int, rz: int)
    requires RegionCoordinates(path) == Success((rx, rz))
    requires TestSafe(rx, rz, filter) && Pruned(rx, rz, filter)
    ensures FileSafe(RegionFile(path, data), filter, sub)
    ensures FindBlocks(RegionFile(path, data), sub, filter) == Success([])
  {
  }

  /** The chunk loop stops at the first chunk that does not decode: whatever
      follows it is never scanned and needs no guarantee. */
  lemma UndecodableStopsScan(rx: int, rz: int, filter: Option<DistanceFilter>, rest: seq<ChunkEntry>, sub: string)
    ensures EntriesSafe(rx, rz, filter, [Undecodable] + rest, sub)
    ensures ScanEntries(rx, rz, filter, [Undecodable] + rest, sub) == Failure(BadChunk)
  {
    var entries := [Undecodable] + rest;
    forall k | 0 < k < |entries|
      ensures !Reached(entries, k)
    {
      assert entries[0].Undecodable?;
    }
  }

  /** A full chunk at grid position (31, 31) of that region, origin (496, 496),
      passes the same filter and reports its matching block. */
  lemma NearChunkKept(c: Chunk, sub: string)
    requires c.status == FULL_STATUS && c.localX == 31 && c.localZ == 31 && c.yStart == 0
    requires |c.blocks| == 1 && Contains(c.blocks[0], sub)
    ensures ChunkSafe(0, 0, Some(DistanceFilter(500, 500, 10)), c, sub)
    ensures ScanChunk(0, 0, Some(DistanceFilter(500, 500, 10)), c, sub).Some?
  {
    NearChunkSafe(c, sub);
    var origin := ChunkOrigin(0, 0, c);
    var found := FoundBlocks(origin, c.blocks, sub);
  }

  lemma NearChunkSafe(c: Chunk, sub: string)
    requires c.status == FULL_STATUS && c.localX == 31 && c.localZ == 31 && c.yStart == 0
    requires |c.blocks| == 1
    ensures ChunkOrigin(0, 0, c) == Pos(496, 0, 496)
    ensures !Pruned(496, 496, Some(DistanceFilter(500, 500, 10)))
    ensures ChunkSafe(0, 0, Some(DistanceFilter(500, 500, 10)), c, sub)
  {
    assert IndexSafe(Pos(496, 0, 496), 0);
  }

  /** The region test looks only at the region's corner, so it can prune a
      region holding a chunk that the chunk test would keep: with origin
      (500, 500) and maximum distance 10, the region whose corner is (0, 0) is
      skipped although its chunk at grid position (31, 31), whose origin is
      (496, 496), lies within range. */
  lemma RegionPruneNotConservative(path: string, c: Chunk, sub: string)
    requires RegionCoordinates(path) == Success((0, 0))
    requires c.status == FULL_STATUS && c.localX == 31 && c.localZ == 31 && c.yStart == 0
    requires |c.blocks| == 1 && Contains(c.blocks[0], sub)
    ensures var filter := Some(DistanceFilter(500, 500, 10));
            var file := RegionFile(path, Entries([Decoded(c)]));
            && FileSafe(file, filter, sub)
            && FindBlocks(file, sub, filter) == Success([])
            && ChunkSafe(0, 0, filter, c, sub)
            && ScanChunk(0, 0, filter, c, sub).Some?
  {
    assert TestSafe(0, 0, Some(DistanceFilter(500, 500, 10))) && Pruned(0, 0, Some(DistanceFilter(500, 500, 10)));
    FarCornerSkipsRegion(path, Entries([Decoded(c)]), sub, Some(DistanceFilter(500, 500, 10)), 0, 0);
    NearChunkKept(c, sub);
  }
}

=== FILE: report.dfy ===
/** The output stage of `main`: every match on its own line, or one line per
    distinct block name of each chunk with the number of its matches. */
module Report {
  import opened ChunkScan
  import opened NameCounts
  import opened Flatten

  /** One output line: a single match, or a name with its count in a chunk. */
  datatype ReportLine = BlockLine(pos: Pos, name: string) | CountLine(chunk: Pos, name: string, count: nat)

  /** The lines of one chunk when every match is shown: one line per match,
      in the chunk's order, with the match's coordinate and name. */
  function BlockLines(r: BlockResults): (lines: seq<ReportLine>)
    ensures |lines| == |r.blocks|
    ensures forall k :: 0 <= k < |lines| ==>
              lines[k].BlockLine? && lines[k].pos == r.blocks[k].pos && lines[k].name == r.blocks[k].name
  {
    seq(|r.blocks|, k requires 0 <= k < |r.blocks| => BlockLine(r.blocks[k].pos, r.blocks[k].name))
  }

  /** One count line per name of `ns`, in that order. */
  function CountLinesFor(chunk: Pos, m: map<string, nat>, ns: seq<string>): seq<ReportLine>
    requires forall n :: n in ns ==> n in m
  {
    if |ns| == 0 then []
    else CountLinesFor(chunk, m, ns[..|ns| - 1]) + [CountLine(chunk, ns[|ns| - 1], m[ns[|ns| - 1]])]
  }

  lemma {:induction false} CountLinesForShape(chunk: Pos, m: map<string, nat>, ns: seq<string>)
    requires forall n :: n in ns ==> n in m
    ensures var lines := CountLinesFor(chunk, m, ns);
            && |lines| == |ns|
            && forall k :: 0 <= k < |ns| ==> lines[k] == CountLine(chunk, ns[k], m[ns[k]])
  {
    if |ns| > 0 {
      CountLinesForShape(chunk, m, ns[..|ns| - 1]);
    }
  }

  /** The grouped lines of one chunk: the folded counts, one line per distinct
      name in order of first occurrence, each with the number of the chunk's
      matches of that name. */
  function ChunkCountLines(r: BlockResults): (lines: seq<ReportLine>)
    ensures var ns := DistinctNames(r.blocks);
            && |lines| == |ns|
            && forall k :: 0 <= k < |lines| ==> lines[k] == CountLine(r.chunk, ns[k], CountName(r.blocks, ns[k]))
  {
    var ns, m := DistinctNames(r.blocks), TallyNames(r.blocks);
    SameNames(r.blocks);
    CountLinesForShape(r.chunk, m, ns);
    CountLinesFor(r.chunk, m, ns)
  }

  /** Every grouped line of a chunk names one of its blocks and carries the
      number of the chunk's matches with exactly that name. */
  lemma GroupedCounts(r: BlockResults)
    ensures var lines := ChunkCountLines(r);
            forall k :: 0 <= k < |lines| ==>
              && lines[k].CountLine?
              && lines[k].chunk == r.chunk
              && lines[k].count == CountName(r.blocks, lines[k].name)
              && exists j :: 0 <= j < |r.blocks| && r.blocks[j].name == lines[k].name
  {
    SameNames(r.blocks);
    var ns, m := DistinctNames(r.blocks), TallyNames(r.blocks);
    CountLinesForShape(r.chunk, m, ns);
    var lines := ChunkCountLines(r);
    forall k | 0 <= k < |lines|
      ensures && lines[k].CountLine?
              && lines[k].chunk == r.chunk
              && lines[k].count == CountName(r.blocks, lines[k].name)
              && exists j :: 0 <= j < |r.blocks| && r.blocks[j].name == lines[k].name
    {
      assert lines[k] == CountLine(r.chunk, ns[k], m[ns[k]]);
      assert ns[k] in ns;
    }
  }

  /** Each name of a chunk gets exactly one grouped line. */
  lemma GroupedNamesOnce(r: BlockResults)
    ensures var lines := ChunkCountLines(r);
            && (forall i, j :: 0 <= i < j < |lines| ==> lines[i].name != lines[j].name)
            && (forall j :: 0 <= j < |r.blocks| ==> exists k :: 0 <= k < |lines| && lines[k].name == r.blocks[j].name)
  {
    var ns := DistinctNames(r.blocks);
    var lines := ChunkCountLines(r);
    forall j | 0 <= j < |r.blocks|
      ensures exists k :: 0 <= k < |lines| && lines[k].name == r.blocks[j].name
    {
      assert r.blocks[j].name in ns;
      var k :| 0 <= k < |ns| && ns[k] == r.blocks[j].name;
      assert lines[k].name == ns[k];
    }
  }

  /** The number of matches over all chunks. */
  function MatchCount(rs: seq<BlockResults>): nat {
    if |rs| == 0 then 0 else |rs[0].blocks| + MatchCount(rs[1..])
  }

  /** What `main` prints for the sorted results, formatting aside: in listing
      mode one line per match, in grouped mode counts that add up to the
      number of matches. */
  function Lines(rs: seq<BlockResults>, showAll: bool): (lines: seq<ReportLine>)
    ensures showAll ==> |lines| == MatchCount(rs)
    ensures !showAll ==> CountTotal(lines) == MatchCount(rs)
  {
    LineTotals(rs);
    if showAll then FlatMap(rs, BlockLines) else FlatMap(rs, ChunkCountLines)
  }

  /** The sum of the counts on the count lines. */
  function CountTotal(lines: seq<ReportLine>): nat {
    if |lines| == 0 then 0
    else CountTotal(lines[..|lines| - 1]) + (if lines[|lines| - 1].CountLine? then lines[|lines| - 1].count else 0)
  }

  lemma {:induction false} CountTotalAppend(a: seq<ReportLine>, b: seq<ReportLine>)
    ensures CountTotal(a + b) == CountTotal(a) + CountTotal(b)
    decreases |b|
  {
    if |b| == 0 {
      assert a + b == a;
    } else {
      assert (a + b)[..|a + b| - 1] == a + b[..|b| - 1];
      CountTotalAppend(a, b[..|b| - 1]);
    }
  }

  lemma {:induction false} CountLinesForTotal(chunk: Pos, m: map<string, nat>, ns: seq<string>)
    requires forall n :: n in ns ==> n in m
    ensures CountTotal(CountLinesFor(chunk, m, ns)) == SumCounts(m, ns)
  {
    if |ns| > 0 {
      var init := ns[..|ns| - 1];
      CountLinesForTotal(chunk, m, init);
      CountTotalAppend(CountLinesFor(chunk, m, init), [CountLine(chunk, ns[|ns| - 1], m[ns[|ns| - 1]])]);
    }
  }

  /** In one chunk, the counts of the grouped lines add up to the number of
      lines the listing mode prints for it. */
  lemma ChunkCountTotal(r: BlockResults)
    ensures CountTotal(ChunkCountLines(r)) == |BlockLines(r)|
  {
    SameNames(r.blocks);
    CountLinesForTotal(r.chunk, TallyNames(r.blocks), DistinctNames(r.blocks));
    TallyTotal(r.blocks);
  }

  /** Over all chunks, the listing has one line per match and the grouped
      counts add up to the same number. */
  lemma {:induction false} LineTotals(rs: seq<BlockResults>)
    ensures |FlatMap(rs, BlockLines)| == MatchCount(rs)
    ensures CountTotal(FlatMap(rs, ChunkCountLines)) == MatchCount(rs)
  {
    if |rs| > 0 {
      LineTotals(rs[1..]);
      ChunkCountTotal(rs[0]);
      CountTotalAppend(ChunkCountLines(rs[0]), FlatMap(rs[1..], ChunkCountLines));
    }
  }

  /** The printed lines of consecutive results are the lines of each, one
      after the other: chunks are printed in the order of the results. */
  lemma LinesAppend(a: seq<BlockResults>, b: seq<BlockResults>, showAll: bool)
    ensures Lines(a + b, showAll) == Lines(a, showAll) + Lines(b, showAll)
  {
    FlatMapAppend(a, b, BlockLines);
    FlatMapAppend(a, b, ChunkCountLines);
  }

  /** The printed lines of a single result are its listing or its grouped
      counts. */
  lemma LinesOfOne(r: BlockResults)
    ensures Lines([r], true) == BlockLines(r)
    ensures Lines([r], false) == ChunkCountLines(r)
  {
    FlatMapOne(r, BlockLines);
    FlatMapOne(r, ChunkCountLines);
  }
}

=== FILE: scenarios.dfy ===
/** The worked examples of the search, stated for any inputs of the shape
    the example describes. */
module Scenarios {
  import opened Wrappers
  import Int32
  import opened Substring
  import opened Distance
  import opened RegionName
  import opened ChunkScan
  import opened RegionScan
  import opened NameCounts
  import opened Report
  import opened Search

  lemma {:induction false} NoMatchingIndices(names: seq<string>, sub: string)
    requires forall i :: 0 <= i < |names| ==> !Contains(names[i], sub)
    ensures MatchingIndices(names, sub) == []
  {
    if |names| > 0 {
      NoMatchingIndices(names[..|names| - 1], sub);
    }
  }

  /** Only index 5 matches, so the match list is that one index. */
  lemma {:induction false} OnlyIndexFive(names: seq<string>, sub: string)
    requires 5 < |names| && Contains(names[5], sub)
    requires forall i :: 0 <= i < |names| && i != 5 ==> !Contains(names[i], sub)
    ensures MatchingIndices(names, sub) == [5]
  {
    if |names| == 6 {
      NoMatchingIndices(names[..5], sub);
    } else {
      OnlyIndexFive(names[..|names| - 1], sub);
    }
  }

  /** The full chunk at grid position (1, 2) of the region with corner (0, 0),
      such as `r.0.0.mca`, whose only matching block is at linear index 5:
      origin (16, y, 32), one match at (21, y, 32). */
  lemma SingleMatchChunk(c: Chunk, sub: string)
    requires c.status == FULL_STATUS && c.localX == 1 && c.localZ == 2 && Int32.InRange(c.yStart)
    requires 5 < |c.blocks| && Contains(c.blocks[5], sub)
    requires forall i :: 0 <= i < |c.blocks| && i != 5 ==> !Contains(c.blocks[i], sub)
    ensures ChunkSafe(0, 0, None, c, sub)
    ensures ScanChunk(0, 0, None, c, sub) ==
              Some(BlockResults(Pos(16, c.yStart, 32), [BlockMatch(Pos(21, c.yStart, 32), c.blocks[5])]))
  {
    var origin := ChunkOrigin(0, 0, c);
    assert origin == Pos(16, c.yStart, 32);
    OnlyIndexFive(c.blocks, sub);
    assert IndexSafe(origin, 5);
    assert Locate(origin, 5) == Pos(21, c.yStart, 32);
    assert FoundBlocks(origin, c.blocks, sub) == [BlockMatch(Pos(21, c.yStart, 32), c.blocks[5])];
  }

  /** A region with corner (0, 0) (such as `r.0.0.mca`, see
      `RegionName.OriginRegionName`) holding one full chunk at grid position
      (1, 2) whose only match is the block at linear index 5: one chunk result
      at (16, y, 32) with one match at (21, y, 32). */
  lemma SingleMatchScenario(path: string, c: Chunk, sub: string)
    requires RegionCoordinates(path) == Success((0, 0))
    requires c.status == FULL_STATUS && c.localX == 1 && c.localZ == 2 && Int32.InRange(c.yStart)
    requires 5 < |c.blocks| && Contains(c.blocks[5], sub)
    requires forall i :: 0 <= i < |c.blocks| && i != 5 ==> !Contains(c.blocks[i], sub)
    ensures var file := RegionFile(path, Entries([Decoded(c)]));
            && FileSafe(file, None, sub)
            && FindBlocks(file, sub, None) ==
                 Success([BlockResults(Pos(16, c.yStart, 32), [BlockMatch(Pos(21, c.yStart, 32), c.blocks[5])])])
  {
    var entries := [Decoded(c)];
    var file := RegionFile(path, Entries(entries));
    SingleMatchEntries(c, sub);
    assert FileSafe(file, None, sub);
    NoFilterScansEveryRegion(file, sub);
  }

  /** The chunk loop over that single chunk yields that one result. */
  lemma SingleMatchEntries(c: Chunk, sub: string)
    requires c.status == FULL_STATUS && c.localX == 1 && c.localZ == 2 && Int32.InRange(c.yStart)
    requires 5 < |c.blocks| && Contains(c.blocks[5], sub)
    requires forall i :: 0 <= i < |c.blocks| && i != 5 ==> !Contains(c.blocks[i], sub)
    ensures EntriesSafe(0, 0, None, [Decoded(c)], sub)
    ensures ScanEntries(0, 0, None, [Decoded(c)], sub) ==
              Success([BlockResults(Pos(16, c.yStart, 32), [BlockMatch(Pos(21, c.yStart, 32), c.blocks[5])])])
  {
    SingleMatchChunk(c, sub);
    var entries := [Decoded(c)];
    assert entries[1..] == [];
    assert EntriesSafe(0, 0, None, entries, sub);
    assert ScanEntries(0, 0, None, entries[1..], sub) == Success([]);
    var b := BlockResults(Pos(16, c.yStart, 32), [BlockMatch(Pos(21, c.yStart, 32), c.blocks[5])]);
    assert [b] + [] == [b];
  }

  /** A region with corner (0, 0), such as `r.0.0.mca`, with home
      (1000, 1000) and maximum distance 10: the corner test prunes the whole
      file, whatever it holds. */
  lemma DistantHomeScenario(path: string, data: RegionData, sub: string)
    requires RegionCoordinates(path) == Success((0, 0))
    ensures MakeFilter(Some((1000, 1000)), Some(10)) == Some(DistanceFilter(1000, 1000, 10))
    ensures FileSafe(RegionFile(path, data), MakeFilter(Some((1000, 1000)), Some(10)), sub)
    ensures FindBlocks(RegionFile(path, data), sub, MakeFilter(Some((1000, 1000)), Some(10))) == Success([])
  {
    assert SqDist(0, 0, 1000, 1000) == 2000000;
  }

  /** Two chunk results at squared distances 400 and 25 from home (0, 0): the
      nearer one is reported first. */
  lemma NearerChunkFirst(a: BlockResults, b: BlockResults)
    requires KeySafe(a, 0, 0) && KeySafe(b, 0, 0)
    requires SqDist(a.chunk.x, a.chunk.z, 0, 0) == 400 && SqDist(b.chunk.x, b.chunk.z, 0, 0) == 25
    ensures SortResults([a, b], Some((0, 0))) == [b, a]
  {
    var key := DistanceKey(0, 0);
    assert key(a) == 400 && key(b) == 25;
    forall k
      ensures StableSort.WithKey([b, a], key, k) == StableSort.WithKey([a, b], key, k)
    {
      assert [b, a][..1] == [b] && [a, b][..1] == [a];
      assert [b][..0] == [] && [a][..0] == [];
    }
    SortedOrderIsUnique([a, b], 0, 0, [b, a]);
  }

  /** Names in the order name, name, other, name. */
  predicate ThreeAndOne(bs: seq<BlockMatch>) {
    && |bs| == 4
    && bs[1].name == bs[0].name && bs[3].name == bs[0].name
    && bs[2].name != bs[0].name
  }

  lemma ThreeAndOneNames(bs: seq<BlockMatch>)
    requires ThreeAndOne(bs)
    ensures DistinctNames(bs) == [bs[0].name, bs[2].name]
  {
    var n1, n2 := bs[0].name, bs[2].name;
    assert bs[..1][..0] == [];
    assert bs[..2][..1] == bs[..1];
    assert bs[..3][..2] == bs[..2];
    assert bs[..4][..3] == bs[..3];
    assert bs[..4] == bs;
    assert DistinctNames(bs[..1]) == [n1];
    assert DistinctNames(bs[..2]) == [n1];
    assert DistinctNames(bs[..3]) == [n1, n2];
  }

  lemma ThreeAndOneTally(bs: seq<BlockMatch>)
    requires ThreeAndOne(bs)
    ensures bs[0].name in TallyNames(bs) && TallyNames(bs)[bs[0].name] == 3
    ensures bs[2].name in TallyNames(bs) && TallyNames(bs)[bs[2].name] == 1
  {
    var n1, n2 := bs[0].name, bs[2].name;
    assert bs[..1][..0] == [];
    assert bs[..2][..1] == bs[..1];
    assert bs[..3][..2] == bs[..2];
    assert bs[..4][..3] == bs[..3];
    assert bs[..4] == bs;
    assert CountName(bs[..1], n1) == 1 && CountName(bs[..1], n2) == 0;
    assert CountName(bs[..2], n1) == 2 && CountName(bs[..2], n2) == 0;
    assert CountName(bs[..3], n1) == 2 && CountName(bs[..3], n2) == 1;
    assert CountName(bs, n1) == 3 && CountName(bs, n2) == 1;
  }

  /** A chunk with three matches of one name and one of another, in the order
      name, name, other, name: two grouped lines, with counts 3 and 1. */
  lemma ThreeAndOneScenario(r: BlockResults)
    requires ThreeAndOne(r.blocks)
    ensures ChunkCountLines(r) == [CountLine(r.chunk, r.blocks[0].name, 3), CountLine(r.chunk, r.blocks[2].name, 1)]
  {
    var n1, n2 := r.blocks[0].name, r.blocks[2].name;
    ThreeAndOneNames(r.blocks);
    ThreeAndOneTally(r.blocks);
    var m := TallyNames(r.blocks);
    assert [n1, n2][..1] == [n1] && [n1][..0] == [];
    assert CountLinesFor(r.chunk, m, [n1]) == [CountLine(r.chunk, n1, 3)];
  }
}

=== FILE: search.dfy ===
/** The driver in `main`: every region file of the directory is scanned, the
    per-file results are concatenated, optionally sorted by distance from
    `home`, and reported. */
module Search {
  import opened Wrappers
  import Int32
  import opened Distance
  import opened ChunkScan
  import opened RegionScan
  import opened StableSort
  import opened Flatten
  import opened Report

  /** Every file can be scanned without `i32` overflow. */
  predicate FilesSafe(files: seq<RegionFile>, filter: Option<DistanceFilter>, sub: string) {
    forall k :: 0 <= k < |files| ==> FileSafe(files[k], filter, sub)
  }

  /** `find_blocks` as a total function of the file (a file outside the
      safety precondition, which `SearchFiles` never passes, is reported as a
      bad region). */
  function FileScan(sub: string, filter: Option<DistanceFilter>): RegionFile -> Result<seq<BlockResults>, ScanError> {
    (file: RegionFile) => if FileSafe(file, filter, sub) then FindBlocks(file, sub, filter) else Failure(BadRegion)
  }

  /** `flat_map` of `find_blocks(..).unwrap()` over the directory listing,
      evaluated in listing order: the run fails when any file fails, and
      otherwise collects the per-file results in file order. */
  function SearchFiles(files: seq<RegionFile>, sub: string, filter: Option<DistanceFilter>)
    : (r: Result<seq<BlockResults>, ScanError>)
    requires FilesSafe(files, filter, sub)
    ensures r.Failure? <==> exists k :: 0 <= k < |files| && FindBlocks(files[k], sub, filter).Failure?
    ensures r.Success? ==> r.value == FlatMap(files, FoundOf(FileScan(sub, filter)))
  {
    var r := CollectAll(files, FileScan(sub, filter));
    assert forall k :: 0 <= k < |files| ==> FileScan(sub, filter)(files[k]) == FindBlocks(files[k], sub, filter);
    r
  }

  /** A failed run reports the error of the first file, in listing order,
      whose scan fails. */
  lemma FirstFailureReported(files: seq<RegionFile>, sub: string, filter: Option<DistanceFilter>)
    requires FilesSafe(files, filter, sub)
    requires SearchFiles(files, sub, filter).Failure?
    ensures exists k :: 0 <= k < |files| && FindBlocks(files[k], sub, filter) == Failure(SearchFiles(files, sub, filter).error) &&
                        forall j :: 0 <= j < k ==> FindBlocks(files[j], sub, filter).Success?
  {
    CollectFirstFailure(files, FileScan(sub, filter));
    assert forall k :: 0 <= k < |files| ==> FileScan(sub, filter)(files[k]) == FindBlocks(files[k], sub, filter);
  }

  /** The order in which the directory lists its files does not matter: the
      run fails for one order exactly when it fails for another, and otherwise
      collects the same chunk results, possibly in another order. */
  lemma DirectoryOrderIrrelevant(files1: seq<RegionFile>, files2: seq<RegionFile>, sub: string, filter: Option<DistanceFilter>)
    requires multiset(files1) == multiset(files2)
    requires FilesSafe(files1, filter, sub) && FilesSafe(files2, filter, sub)
    ensures SearchFiles(files1, sub, filter).Success? <==> SearchFiles(files2, sub, filter).Success?
    ensures SearchFiles(files1, sub, filter).Success? ==>
              multiset(SearchFiles(files1, sub, filter).value) == multiset(SearchFiles(files2, sub, filter).value)
  {
    CollectPermutation(files1, files2, FileScan(sub, filter));
  }

  /** The sort key: squared distance from `home` to the chunk origin. */
  function DistanceKey(hx: int, hz: int): BlockResults -> int {
    (r: BlockResults) => SqDist(r.chunk.x, r.chunk.z, hx, hz)
  }

  /** The sort key of `r` can be computed without `i32` overflow. */
  predicate KeySafe(r: BlockResults, hx: int, hz: int) {
    && Int32.InRange(r.chunk.x - hx) && Int32.InRange(r.chunk.z - hz)
    && Int32.InRange(Sq(r.chunk.x - hx)) && Int32.InRange(Sq(r.chunk.z - hz))
    && Int32.InRange(SqDist(r.chunk.x, r.chunk.z, hx, hz))
  }

  predicate SortSafe(rs: seq<BlockResults>, home: Option<(int, int)>) {
    home.Some? ==> forall k :: 0 <= k < |rs| ==> KeySafe(rs[k], home.value.0, home.value.1)
  }

  /** `sort_by_key` by squared distance from `home` when one is configured;
      the collected order otherwise. The result is ordered by distance, holds
      the same chunk results, and chunks at equal distance keep their order. */
  function SortResults(rs: seq<BlockResults>, home: Option<(int, int)>): (r: seq<BlockResults>)
    requires SortSafe(rs, home)
    ensures home.None? ==> r == rs
    ensures multiset(r) == multiset(rs)
    ensures home.Some? ==> SortedBy(r, DistanceKey(home.value.0, home.value.1))
    ensures home.Some? ==> forall k :: WithKey(r, DistanceKey(home.value.0, home.value.1), k) ==
                                       WithKey(rs, DistanceKey(home.value.0, home.value.1), k)
  {
    match home
    case None => rs
    case Some((hx, hz)) => SortByKey(rs, DistanceKey(hx, hz))
  }

  /** The sorted order is fully determined: any arrangement ordered by
      distance that keeps equidistant chunks in collected order is it. */
  lemma SortedOrderIsUnique(rs: seq<BlockResults>, hx: int, hz: int, other: seq<BlockResults>)
    requires SortSafe(rs, Some((hx, hz)))
    requires SortedBy(other, DistanceKey(hx, hz))
    requires forall k :: WithKey(other, DistanceKey(hx, hz), k) == WithKey(rs, DistanceKey(hx, hz), k)
    ensures other == SortResults(rs, Some((hx, hz)))
  {
    StableSortUnique(other, SortResults(rs, Some((hx, hz))), DistanceKey(hx, hz));
  }

  /** A run's configuration. */
  datatype Request = Request(block: string, home: Option<(int, int)>, maxDistance: Option<int>, showAll: bool)

  /** The search and the sort cannot overflow `i32`. */
  predicate RunSafe(files: seq<RegionFile>, req: Request) {
    var filter := MakeFilter(req.home, req.maxDistance);
    && FilesSafe(files, filter, req.block)
    && (SearchFiles(files, req.block, filter).Success? ==> SortSafe(SearchFiles(files, req.block, filter).value, req.home))
  }

  /** The whole search: scan, sort, report. The report holds the lines of
      the collected results; sorting only reorders them, and without a home
      the collected order is kept. */
  function Run(files: seq<RegionFile>, req: Request): (r: Result<seq<ReportLine>, ScanError>)
    requires RunSafe(files, req)
    ensures var filter := MakeFilter(req.home, req.maxDistance);
            r.Failure? <==> exists k :: 0 <= k < |files| && FindBlocks(files[k], req.block, filter).Failure?
    ensures var found := FlatMap(files, FoundOf(FileScan(req.block, MakeFilter(req.home, req.maxDistance))));
            && (r.Success? ==> multiset(r.value) == multiset(Lines(found, req.showAll)))
            && (r.Success? && req.home.None? ==> r.value == Lines(found, req.showAll))
  {
    var filter := MakeFilter(req.home, req.maxDistance);
    match SearchFiles(files, req.block, filter)
    case Failure(e) => Failure(e)
    case Success(found) =>
      var sorted := SortResults(found, req.home);
      FlatMapPermutation(sorted, found, BlockLines);
      FlatMapPermutation(sorted, found, ChunkCountLines);
      Success(Lines(sorted, req.showAll))
  }

  /** With a home, the printed lines are those of an arrangement of the
      collected results that is ordered by squared distance from home and
      keeps equidistant chunks in collected order. */
  lemma RunPrintsSorted(files: seq<RegionFile>, req: Request)
    requires RunSafe(files, req)
    requires Run(files, req).Success? && req.home.Some?
    ensures var found := FlatMap(files, FoundOf(FileScan(req.block, MakeFilter(req.home, req.maxDistance))));
            var key := DistanceKey(req.home.value.0, req.home.value.1);
            exists s ::
              && Run(files, req).value == Lines(s, req.showAll)
              && SortedBy(s, key)
              && forall k :: WithKey(s, key, k) == WithKey(found, key, k)
  {
    var filter := MakeFilter(req.home, req.maxDistance);
    var found := SearchFiles(files, req.block, filter).value;
    var s := SortResults(found, req.home);
    assert Run(files, req).value == Lines(s, req.showAll);
  }

  /** End to end, the printed lines do not depend on the order in which the
      directory lists the files, up to the order of the lines. */
  lemma OutputIndependentOfDirectoryOrder(files1: seq<RegionFile>, files2: seq<RegionFile>, req: Request)
    requires multiset(files1) == multiset(files2)
    requires RunSafe(files1, req) && RunSafe(files2, req)
    ensures Run(files1, req).Success? <==> Run(files2, req).Success?
    ensures Run(files1, req).Success? ==> multiset(Run(files1, req).value) == multiset(Run(files2, req).value)
  {
    var filter := MakeFilter(req.home, req.maxDistance);
    DirectoryOrderIrrelevant(files1, files2, req.block, filter);
    if Run(files1, req).Success? {
      var found1, found2 := SearchFiles(files1, req.block, filter).value, SearchFiles(files2, req.block, filter).value;
      FlatMapPermutation(found1, found2, BlockLines);
      FlatMapPermutation(found1, found2, ChunkCountLines);
    }
  }
}

=== FILE: stable_sort.dfy ===
/** A stable sort by an integer key, as `slice::sort_by_key`: the result is
    ordered by key, and elements with equal keys keep their relative order. */
module StableSort {

  /** `s` is in non-decreasing order of `key`. */
  ghost predicate SortedBy<T>(s: seq<T>, key: T -> int) {
    forall i, j :: 0 <= i < j < |s| ==> key(s[i]) <= key(s[j])
  }

  /** The elements of `s` whose key is `k`, in their order in `s`. */
  function WithKey<T>(s: seq<T>, key: T -> int, k: int): seq<T> {
    if |s| == 0 then []
    else WithKey(s[..|s| - 1], key, k) + (if key(s[|s| - 1]) == k then [s[|s| - 1]] else [])
  }

  lemma {:induction false} WithKeyAppend<T>(a: seq<T>, b: seq<T>, key: T -> int, k: int)
    ensures WithKey(a + b, key, k) == WithKey(a, key, k) + WithKey(b, key, k)
    decreases |b|
  {
    if |b| == 0 {
      assert a + b == a;
    } else {
      var b' := b[..|b| - 1];
      assert (a + b)[..|a + b| - 1] == a + b';
      WithKeyAppend(a, b', key, k);
    }
  }

  /** Every element of `WithKey(s, key, k)` is an element of `s` with key `k`. */
  lemma {:induction false} WithKeyMembers<T>(s: seq<T>, key: T -> int, k: int)
    ensures forall x :: x in WithKey(s, key, k) <==> x in s && key(x) == k
  {
    if |s| > 0 {
      var s' := s[..|s| - 1];
      WithKeyMembers(s', key, k);
      assert s == s' + [s[|s| - 1]];
    }
  }

  lemma WithKeySnoc<T>(s: seq<T>, y: T, key: T -> int, k: int)
    ensures WithKey(s + [y], key, k) == WithKey(s, key, k) + (if key(y) == k then [y] else [])
  {
    assert (s + [y])[..|s|] == s;
  }

  /** Inserts `x` after every element whose key is at most `key(x)`, scanning
      from the back. */
  function Insert<T>(s: seq<T>, x: T, key: T -> int): seq<T>
    decreases |s|
  {
    if |s| == 0 then [x]
    else if key(s[|s| - 1]) <= key(x) then s + [x]
    else Insert(s[..|s| - 1], x, key) + [s[|s| - 1]]
  }

  /** Inserting adds exactly `x`. */
  lemma {:induction false} InsertMultiset<T>(s: seq<T>, x: T, key: T -> int)
    ensures multiset(Insert(s, x, key)) == multiset(s) + multiset{x}
    decreases |s|
  {
    if |s| > 0 && key(s[|s| - 1]) > key(x) {
      var s', last := s[..|s| - 1], s[|s| - 1];
      assert s == s' + [last];
      InsertMultiset(s', x, key);
    }
  }

  /** Inserting into a sorted sequence keeps it sorted. */
  lemma {:induction false} InsertSorted<T>(s: seq<T>, x: T, key: T -> int)
    requires SortedBy(s, key)
    ensures SortedBy(Insert(s, x, key), key)
    decreases |s|
  {
    if |s| > 0 && key(s[|s| - 1]) > key(x) {
      var s', last := s[..|s| - 1], s[|s| - 1];
      var r' := Insert(s', x, key);
      assert s == s' + [last];
      InsertSorted(s', x, key);
      InsertMultiset(s', x, key);
      forall i | 0 <= i < |r'|
        ensures key(r'[i]) <= key(last)
      {
        var y := r'[i];
        assert y in multiset(r');
        if y != x {
          assert y in multiset(s');
          var j :| 0 <= j < |s'| && s'[j] == y;
        }
      }
    }
  }

  /** Inserting places `x` after every element that has its key and changes
      nothing else among the elements of each key. */
  lemma {:induction false} InsertWithKey<T>(s: seq<T>, x: T, key: T -> int, k: int)
    requires SortedBy(s, key)
    ensures WithKey(Insert(s, x, key), key, k) == WithKey(s, key, k) + (if key(x) == k then [x] else [])
    decreases |s|
  {
    if |s| == 0 {
      WithKeySnoc([], x, key, k);
      assert [] + [x] == [x];
    } else if key(s[|s| - 1]) <= key(x) {
      WithKeySnoc(s, x, key, k);
    } else {
      var s', last := s[..|s| - 1], s[|s| - 1];
      var r' := Insert(s', x, key);
      assert s == s' + [last];
      InsertWithKey(s', x, key, k);
      WithKeySnoc(r', last, key, k);
      WithKeySnoc(s', last, key, k);
    }
  }

  /** Insertion sort: a stable sort by `key`. */
  function SortByKey<T>(s: seq<T>, key: T -> int): (r: seq<T>)
    ensures SortedBy(r, key)
    ensures multiset(r) == multiset(s)
    ensures forall k :: WithKey(r, key, k) == WithKey(s, key, k)
  {
    if |s| == 0 then []
    else
      var s' := s[..|s| - 1];
      assert s == s' + [s[|s| - 1]];
      var sorted := SortByKey(s', key);
      InsertSorted(sorted, s[|s| - 1], key);
      InsertMultiset(sorted, s[|s| - 1], key);
      assert forall k :: WithKey(Insert(sorted, s[|s| - 1], key), key, k) == WithKey(s, key, k) by {
        forall k
          ensures WithKey(Insert(sorted, s[|s| - 1], key), key, k) == WithKey(s, key, k)
        {
          InsertWithKey(sorted, s[|s| - 1], key, k);
          WithKeySnoc(s', s[|s| - 1], key, k);
        }
      }
      Insert(sorted, s[|s| - 1], key)
  }

  /** In a sorted sequence the last element has the largest key. */
  lemma SortedLastIsMax<T>(s: seq<T>, key: T -> int, y: T)
    requires SortedBy(s, key) && y in s
    ensures key(y) <= key(s[|s| - 1])
  {
    var i :| 0 <= i < |s| && s[i] == y;
  }

  /** Two sorted sequences with the same elements per key end in elements of
      the same key. */
  lemma SameLastKey<T>(a: seq<T>, b: seq<T>, key: T -> int)
    requires 0 < |a| && 0 < |b|
    requires SortedBy(a, key) && SortedBy(b, key)
    requires forall k :: WithKey(a, key, k) == WithKey(b, key, k)
    ensures key(a[|a| - 1]) == key(b[|b| - 1])
  {
    var x, y := a[|a| - 1], b[|b| - 1];
    WithKeyMembers(a, key, key(y));
    WithKeyMembers(b, key, key(y));
    WithKeyMembers(a, key, key(x));
    WithKeyMembers(b, key, key(x));
    assert WithKey(a, key, key(y)) == WithKey(b, key, key(y));
    assert WithKey(a, key, key(x)) == WithKey(b, key, key(x));
    SortedLastIsMax(a, key, y);
    SortedLastIsMax(b, key, x);
  }

  function DropLast<T>(s: seq<T>): seq<T>
    requires 0 < |s|
  {
    s[..|s| - 1]
  }

  /** Sequences with the same elements per key whose last elements have the
      same key end in the same element. */
  lemma SameLast<T>(a: seq<T>, b: seq<T>, key: T -> int)
    requires 0 < |a| && 0 < |b|
    requires key(a[|a| - 1]) == key(b[|b| - 1])
    requires WithKey(a, key, key(a[|a| - 1])) == WithKey(b, key, key(a[|a| - 1]))
    ensures a[|a| - 1] == b[|b| - 1]
  {
    var k := key(a[|a| - 1]);
    var wa := WithKey(a, key, k);
    assert wa == WithKey(DropLast(a), key, k) + [a[|a| - 1]];
    assert wa == WithKey(DropLast(b), key, k) + [b[|b| - 1]];
  }

  /** Removing equal last elements keeps the elements of key `k` equal. */
  lemma DropSameLast<T>(a: seq<T>, b: seq<T>, key: T -> int, k: int)
    requires 0 < |a| && 0 < |b|
    requires a[|a| - 1] == b[|b| - 1]
    requires WithKey(a, key, k) == WithKey(b, key, k)
    ensures WithKey(DropLast(a), key, k) == WithKey(DropLast(b), key, k)
  {
    var x := a[|a| - 1];
    var e := if key(x) == k then [x] else [];
    var u, v := WithKey(DropLast(a), key, k), WithKey(DropLast(b), key, k);
    assert u + e == v + e;
    assert (u + e)[..|u|] == u;
    assert (v + e)[..|v|] == v;
  }

  /** Ordered by key, with the same elements per key in the same order: these
      two requirements leave exactly one possible result, so any stable sort
      by `key` returns what `SortByKey` returns. */
  lemma {:induction false} StableSortUnique<T>(a: seq<T>, b: seq<T>, key: T -> int)
    requires SortedBy(a, key) && SortedBy(b, key)
    requires forall k :: WithKey(a, key, k) == WithKey(b, key, k)
    ensures a == b
    decreases |a|
  {
    if |a| == 0 && |b| == 0 {
    } else if |a| == 0 {
      WithKeyMembers(b, key, key(b[0]));
    } else if |b| == 0 {
      WithKeyMembers(a, key, key(a[0]));
    } else {
      SameLastKey(a, b, key);
      SameLast(a, b, key);
      forall k
        ensures WithKey(DropLast(a), key, k) == WithKey(DropLast(b), key, k)
      {
        DropSameLast(a, b, key, k);
      }
      StableSortUnique(DropLast(a), DropLast(b), key);
      assert a == DropLast(a) + [a[|a| - 1]] && b == DropLast(b) + [b[|b| - 1]];
    }
  }
}

=== FILE: substring.dfy ===
/** Case-sensitive substring search, as `str::contains` with a string pattern. */
module Substring {

  /** `sub` occurs in `s` starting at index `i`. */
  predicate OccursAt(s: string, sub: string, i: int) {
    0 <= i && i + |sub| <= |s| && s[i..i + |sub|] == sub
  }

  /** Tries every start position from left to right. */
  predicate Contains(s: string, sub: string)
    decreases |s|
  {
    if |sub| > |s| then false
    else if s[..|sub|] == sub then true
    else Contains(s[1..], sub)
  }

  /** `Contains` holds exactly when `sub` occurs somewhere in `s`. */
  lemma {:induction false} ContainsIffOccurs(s: string, sub: string)
    ensures Contains(s, sub) <==> exists i :: OccursAt(s, sub, i)
    decreases |s|
  {
    if |sub| > |s| {
    } else if s[..|sub|] == sub {
      assert OccursAt(s, sub, 0);
    } else {
      ContainsIffOccurs(s[1..], sub);
      if Contains(s[1..], sub) {
        var i :| OccursAt(s[1..], sub, i);
        assert s[1..][i..i + |sub|] == s[i + 1..i + 1 + |sub|];
        assert OccursAt(s, sub, i + 1);
      } else {
        forall i | OccursAt(s, sub, i)
          ensures false
        {
          assert i != 0;
          assert s[1..][i - 1..i - 1 + |sub|] == s[i..i + |sub|];
          assert OccursAt(s[1..], sub, i - 1);
        }
      }
    }
  }

  /** A pattern is found wherever it is embedded, e.g. "ore" in "diamond_ore". */
  lemma ContainsInfix(a: string, sub: string, b: string)
    ensures Contains(a + sub + b, sub)
  {
    var s := a + sub + b;
    assert s[|a|..|a| + |sub|] == sub;
    assert OccursAt(s, sub, |a|);
    ContainsIffOccurs(s, sub);
  }
}

=== FILE: wrappers.dfy ===
/** Option and Result, the failure-carrying datatypes used across the model. */
module Wrappers {

  datatype Option<+T> = None | Some(value: T) {

    /** The value in Some, or `default` when None (Rust's `unwrap_or`). */
    function GetOr(default: T): T {
      match this
      case Some(v) => v
      case None => default
    }
  }

  /** Rust's `Result`: the value of a successful computation or an error. */
  datatype Result<+R, +E> = Success(value: R) | Failure(error: E)
}
